=== FILE: README.md ===
# bit-broadcast data layer, modelled in Dafny

bit-broadcast is a small social app: users write posts, like them, reply
with comments and like comments. All persistence goes through
`services/database.ts`, a thin layer over an on-device SQLite file. It holds
one module-level connection handle, creates five tables (users, posts,
comments, likes, comment_likes), seeds a single default user and exposes one
async function per screen action.

This project models that layer as pure functions over immutable tables:

- `results.dfy`: the error outcomes. An `executeSql` call (or the inline
  handle check) before the handle exists gives `NotInitialized`. A `db!`
  read before the handle exists gives `NullHandle`. A statement on a file
  that has no schema gives `NoSuchTable` (opening the file itself never
  fails). A rejected foreign key gives
  `ForeignKeyViolation`.
- `seqs.dfy`: generic sequence algebra. It has filtering, `COUNT(*)` as a
  count of matching rows, `EXISTS`, the AUTOINCREMENT maximum and a stable
  sort used for `ORDER BY`.
- `tables.dfy`: the rows of the five tables, the AUTOINCREMENT counters
  (sqlite_sequence) and the integrity invariant `Valid`. `Valid` says that
  primary keys are unique and every foreign key points at an existing row,
  and, because no function of the layer writes users except the seed, that
  the users table is empty or holds only the default user.
- `statements.dfy`: the effect of each SQL statement the layer issues. The
  foreign-key checks are enforced because both open paths turn
  `PRAGMA foreign_keys` on. Deletes follow the `ON DELETE CASCADE` chain
  posts → comments/likes → comment_likes.
- `invariant.dfy`: every statement preserves `Valid`.
- `queries.dfy`: the `SELECT`s. This covers the correlated `COUNT(*)` and
  `EXISTS` subqueries and the `ORDER BY created_at` clauses.
- `database.dfy`: the exported functions themselves. A `Db` is the
  connection handle (`open`) together with the file contents (`store`).
  Each function returns the new `Db` and its result.
- `likes.dfy`, `cascade.dfy`, `updates.dfy`, `lifecycle.dfy`: properties
  that relate several calls. These are like/unlike round trips, the cascade
  closure, last-write-wins updates, and idempotent start-up.
- `scenario.dfy`: the first-launch trace. It runs initialise, post, like,
  comment and reads the stats back.

`created_at` is the wall clock (`CURRENT_TIMESTAMP`), so it is passed to
every insert as a `now: nat` parameter. Rows are compared by that tick.

## Model

| member | source | states |
|---|---|---|
| Database.GetDb | services/database.ts:72-78 | After the call the handle is open and the file is unchanged; an already open handle is reused as is. |
| Database.Executable | services/database.ts:80-83 | A statement can run only on an open handle with the schema present; a missing handle fails with NotInitialized. |
| Database.Readable | services/database.ts:85-86 | A `db!` read on a missing handle fails with NullHandle rather than NotInitialized. |
| Database.InitDatabase | services/database.ts:5-70 | Initialisation always succeeds and leaves an open handle with the schema; it touches only the users table; on a valid file the users table afterwards holds exactly the default user. |
| Database.GetPosts | services/database.ts:85-92 | Without a handle the read fails with NullHandle, and it fails on an open file with no schema; when the schema exists it returns exactly the stored posts (same multiset), newest first. |
| Database.GetPostStats | services/database.ts:94-119 | Opens the handle if needed. It fails only with NoSuchTable when there is no schema. Otherwise it returns one row per post, newest first, and every post appears (exactly once when ids are unique). like_count and comment_count equal the number of matching likes and comments. liked_by_user is true iff the default user has a like on that post. |
| Database.CreatePost | services/database.ts:121-137 | Opens the handle if needed. It succeeds iff the schema exists and the author is an existing user; otherwise it fails with NoSuchTable or ForeignKeyViolation and the tables are unchanged. On success the tables are exactly those of the INSERT: one post row with the given fields and the next AUTOINCREMENT id is appended, and no other table or row changes. Integrity is preserved. |
| Database.UpdatePost | services/database.ts:139-144 | Fails with NotInitialized without a handle. On success the handle stays open and the tables are exactly those of the UPDATE: it rewrites title, content and tag of the matching post. A missing id changes nothing. Integrity is preserved. |
| Database.LikePost | services/database.ts:147-152 | Succeeds iff the handle is open, the schema exists, and the post and the user exist. On success the tables are exactly those of the INSERT: one like row is appended and nothing else changes; the post's like count grows by one and the user now likes it. A rejected like changes nothing. |
| Database.UnlikePost | services/database.ts:154-159 | Fails with NotInitialized without a handle. On success the handle stays open, the tables are exactly those of the DELETE, every like of that user on that post is gone and all other likes are kept. No other table changes. |
| Database.DeletePost | services/database.ts:161-164 | Fails with NotInitialized without a handle. On success the handle stays open, the tables are exactly those of the cascading DELETE, and the post is gone along with its cascaded rows. Integrity is preserved. |
| Database.IsPostLikedByUser | services/database.ts:166-172 | Fails with NullHandle without a handle. Otherwise it is true iff some like row joins that post and that user. |
| Database.GetLikeCount | services/database.ts:174-180 | Fails with NullHandle without a handle. Otherwise it is the number of like rows on that post (0 when there are none). |
| Database.CreateComment | services/database.ts:182-187 | Succeeds iff the handle is open, the schema exists, and the post and the user exist. On success the tables are exactly those of the INSERT: one comment row with the given content, author and tick is appended and nothing else changes; the post's comment count grows by one. Integrity is preserved. |
| Database.GetCommentsByPost | services/database.ts:189-216 | Fails with NullHandle without a handle. Otherwise it returns exactly the comments of that post, one row each, oldest first. like_count equals the number of matching comment likes. liked_by_user is true iff the viewer liked that comment. |
| Database.LikeComment | services/database.ts:218-223 | Succeeds iff the handle is open, the schema exists, and the comment and the user exist. On success the tables are exactly those of the INSERT: one comment-like row is appended and nothing else changes; the comment's like count grows by one and the user now likes it. |
| Database.UnlikeComment | services/database.ts:225-230 | Fails with NotInitialized without a handle. On success the handle stays open, the tables are exactly those of the DELETE, every like of that user on that comment is gone and all other comment likes are kept. No other table changes. |
| Database.UpdateComment | services/database.ts:232-238 | Fails with NotInitialized without a handle. On success the handle stays open and the tables are exactly those of the UPDATE: it rewrites the content of the matching comment. A missing id changes nothing. |
| Database.DeleteComment | services/database.ts:240-243 | Fails with NotInitialized without a handle. On success the handle stays open, the tables are exactly those of the cascading DELETE, and the comment and its comment likes are gone. Integrity is preserved. |
| Database.IsCommentLikedByUser | services/database.ts:245-251 | Fails with NullHandle without a handle. Otherwise it is true iff some comment-like row joins that comment and that user. |
| Statements.SeedDefaultUser | services/database.ts:20-23 | INSERT OR IGNORE changes only users. Afterwards some user has id 1 or the seed email. On a valid file the users table is exactly the default user. |
| Statements.InsertPost | services/database.ts:26-34 | The insert succeeds iff user_id references an existing user. The row is appended with a fresh id above the AUTOINCREMENT counter, and only posts and the counter change. |
| Statements.SetPostFields | services/database.ts:139-144 | Only the posts whose id matches get the new title, content and tag; every other row and table is unchanged. |
| Statements.DeletePostCascade | services/database.ts:44-66 | The `DELETE FROM posts` of deletePost (lines 161-164) under the ON DELETE CASCADE clauses: removes the post, its comments, its likes and the likes on those comments. A missing id changes nothing. |
| Statements.InsertLike | services/database.ts:50-57 | The insert succeeds iff the post and the user exist. It appends one row with a fresh id, and only likes and their counter change. |
| Statements.DeleteLikes | services/database.ts:154-159 | Exactly the likes of that post by that user are removed. When there are none, nothing changes. |
| Statements.InsertComment | services/database.ts:37-46 | The insert succeeds iff the post and the user exist. It appends one row with a fresh id. |
| Statements.SetCommentContent | services/database.ts:232-238 | Only the matching comment's content changes. A missing id changes nothing. |
| Statements.DeleteCommentCascade | services/database.ts:60-68 | Removes the comment and its comment likes. A missing id changes nothing. |
| Statements.InsertCommentLike | services/database.ts:60-68 | The insert succeeds iff the comment and the user exist. It appends one row with a fresh id. |
| Statements.DeleteCommentLikes | services/database.ts:225-230 | Exactly the likes of that comment by that user are removed. When there are none, nothing changes. |
| Tables.Valid | services/database.ts:12-69 | The schema's unique primary keys and intact foreign keys (every foreign key names an existing parent), plus the layer's own reachable-state invariant that only the seed writes users, so the users table holds at most the seed row. As a consequence, the default user's id is the only user id a valid state holds, so every author column can only name that user. |
| Tables.NextId | services/database.ts:27-62 | The AUTOINCREMENT id of a new post, comment, like or comment like is above the stored counter and above every id present, so it is never reused. |
| Invariant.EmptyValid | services/database.ts:12-69 | A freshly created schema satisfies the integrity invariant. |
| Invariant.SeedPreservesValid | services/database.ts:20-23 | Seeding the default user keeps the invariant. |
| Invariant.InsertPostPreservesValid | services/database.ts:129-132 | A successful post insert keeps ids unique and references intact. |
| Invariant.SetPostFieldsPreservesValid | services/database.ts:139-144 | Updating post fields keeps the invariant. |
| Invariant.DeletePostCascadePreservesValid | services/database.ts:161-164 | Deleting a post with its cascade leaves no dangling comment, like or comment like. |
| Invariant.InsertLikePreservesValid | services/database.ts:147-152 | A successful like insert keeps the invariant. |
| Invariant.DeleteLikesPreservesValid | services/database.ts:154-159 | Removing likes keeps the invariant. |
| Invariant.InsertCommentPreservesValid | services/database.ts:182-187 | A successful comment insert keeps the invariant. |
| Invariant.SetCommentContentPreservesValid | services/database.ts:232-238 | Editing a comment keeps the invariant. |
| Invariant.DeleteCommentCascadePreservesValid | services/database.ts:240-243 | Deleting a comment with its likes leaves no dangling comment like. |
| Invariant.InsertCommentLikePreservesValid | services/database.ts:218-223 | A successful comment-like insert keeps the invariant. |
| Invariant.DeleteCommentLikesPreservesValid | services/database.ts:225-230 | Removing comment likes keeps the invariant. |
| Queries.LikeCount | services/database.ts:105 | The like_count subquery is the number of like rows on the post. |
| Queries.CommentCount | services/database.ts:106 | The comment_count subquery is the number of comment rows on the post. |
| Queries.PostLikedBy | services/database.ts:107-109 | The liked_by_user subquery is true iff a like row joins the post and the viewer. |
| Queries.CommentLikeCount | services/database.ts:199 | The comment like_count subquery is the number of comment likes on the comment. |
| Queries.CommentLikedBy | services/database.ts:200-204 | The comment liked_by_user subquery is true iff a comment-like row joins the comment and the viewer. |
| Queries.PostsNewestFirst | services/database.ts:87-89 | The rows are a permutation of the posts, ordered by created_at descending. |
| Queries.AllPostStats | services/database.ts:98-110 | There is one stats row per post, and the rows are exactly the posts' stats. |
| Queries.PostStatsRows | services/database.ts:98-111 | The stats rows are ordered newest first, and their members are exactly the posts' stats. |
| Queries.AllCommentStats | services/database.ts:193-206 | The WHERE post_id filter keeps exactly the post's comments, one row each. |
| Queries.CommentsOfPost | services/database.ts:193-207 | The comment rows are exactly the post's comments, ordered oldest first. |
| Queries.PostStatsListEachPostOnce | services/database.ts:110-111 | With unique post ids, each post's stats row occurs exactly once. |
| Seqs.Filter | services/database.ts:206 | A WHERE filter keeps exactly the rows that satisfy it, never more rows than the input. |
| Seqs.FilterSubMultiset | services/database.ts:206 | A WHERE filter returns no row more often than the table holds it, so it never duplicates a row. |
| Seqs.Count | services/database.ts:105 | COUNT(*) is at most the table size, and it is zero iff no row matches. |
| Seqs.Any | services/database.ts:107-109 | EXISTS is true iff some row matches. |
| Seqs.CountIsCardinality | services/database.ts:176 | COUNT(*) equals the size of the set of matching rows. |
| Seqs.CountAfterFilter | services/database.ts:155-156 | After a DELETE … WHERE, the matching rows that remain are the original ones minus those deleted. |
| Seqs.AppendThenDelete | services/database.ts:147-159 | Appending a row and then deleting every row like it leaves the count reduced by the rows that were already there. |
| Seqs.FilterUniqueKeys | services/database.ts:27-62 | A WHERE filter keeps the primary keys of posts, comments, likes and comment likes unique. |
| Seqs.UniqueKeysOccurOnce | services/database.ts:27-62 | In a table whose primary keys (posts, comments, likes, comment likes) are unique, every row occurs exactly once. |
| Seqs.MaxKey | services/database.ts:27-62 | The AUTOINCREMENT maximum is at least the counter and at least every id, and it is attained. |
| Seqs.SortByKey | services/database.ts:89 | ORDER BY returns a permutation of its input sorted by the key. |
| LikeProperties.LikeThenUnlikePost | services/database.ts:147-159 | When the like succeeds (handle open, schema present, post and user exist), the following unlike succeeds too. It removes the new like together with any earlier likes by the same user. The post's like count returns to its old value iff the user had not liked the post before. |
| LikeProperties.LikePostTwice | services/database.ts:147-152 | Nothing stops a duplicate like: liking twice adds two rows and raises the like count by two. |
| LikeProperties.LikeThenUnlikeComment | services/database.ts:218-230 | The comment-like counterpart of the like/unlike round trip. |
| LikeProperties.LikeCommentTwice | services/database.ts:218-223 | Liking a comment twice adds two rows and raises its like count by two. |
| CascadeProperties.DeleteMissingPostReachesNothing | services/database.ts:44-55 | In a file with intact foreign keys, no comment or like refers to a post id that is absent, so a cascade from that id reaches no row. |
| CascadeProperties.DeletePostCascadeClosure | services/database.ts:44-66 | After deleting a post from a valid file, users are unchanged. A comment, like or comment like survives iff its parent survives, and the file stays valid. |
| CascadeProperties.DeleteCommentCascadeClosure | services/database.ts:66 | After deleting a comment, a comment like survives iff its comment survives, and the file stays valid. |
| UpdateProperties.SetPostFieldsTwice | services/database.ts:139-144 | Two post updates in a row equal the second one alone. |
| UpdateProperties.UpdatePostLastWriteWins | services/database.ts:139-144 | At the API level, the second updatePost overrides the first. |
| UpdateProperties.SetCommentContentTwice | services/database.ts:232-238 | Two comment edits in a row equal the second one alone. |
| UpdateProperties.UpdateCommentLastWriteWins | services/database.ts:232-238 | At the API level, the second updateComment overrides the first. |
| Lifecycle.InitDatabaseIdempotent | services/database.ts:5-70 | Running initialisation twice is the same as running it once. |
| Lifecycle.InitDatabaseIgnoresHandle | services/database.ts:6-10 | Initialisation gives the same result whether or not the handle was already open. |
| Lifecycle.RepeatedLaunches | app/index.tsx:66-77 | After any number of app launches on a valid file, the data equals one initialisation and there is exactly one user with id 1. |
| Scenario.FirstLaunchBeforeInit | services/database.ts:72-86 | Before initialisation, the writes guarded by `executeSql` or the inline handle check fail with NotInitialized and reads through `db!` fail with NullHandle. getPostStats and createPost open the file lazily and then fail with NoSuchTable, after which a guarded write also gets as far as NoSuchTable. |
| Scenario.HelloWorld | services/database.ts:94-216 | On the trace of initialising, posting, liking and commenting, the stats row goes from 0 likes and 0 comments (not liked) to 1 like (liked) to 1 like and 1 comment, and the comment row has no likes. |

## Left out

- Asynchrony and `await`: each exported function is modelled as one atomic step. The race between two concurrent lazy opens is not modelled.
- The `console.log` and `console.error` calls, and the rethrow in the try/catch blocks: they do not change the outcome.
- `PRAGMA foreign_keys = ON` as a statement: enforcement is built into every write, since both open paths issue it.
- SQLite error messages and the thrown `Error` text: errors are the four constructors of `Error`.
- `CURRENT_TIMESTAMP` text format: timestamps are natural-number ticks supplied by the caller.
- The 64-bit rowid limit (SQLITE_FULL once the counter reaches 2^63-1): ids are unbounded integers.
- NULL foreign-key columns: callers always pass concrete ids, so `user_id`, `post_id` and `comment_id` are `int`, never NULL.
- Schema existence is one flag for all five tables: a file with only some of the tables, left by an interrupted initialisation, is not modelled.
- Opening the file can fail for storage reasons; the model treats opening as always succeeding.
- Deleting users (the `ON DELETE CASCADE` on posts.user_id) and the email UNIQUE constraint beyond the seed: no function in the layer writes users other than the seed.
- Order of rows with equal `created_at`: SQL leaves it unspecified. The model uses a stable sort, and the stated properties (a permutation, sorted by the key) do not depend on that choice.
- The screens in `app/` and `components/`, which only call the layer; the start-up call in `app/index.tsx` is used to motivate `Lifecycle.RepeatedLaunches`.

=== FILE: cascade.dfy ===
/**
  The `ON DELETE CASCADE` closure: deleting a post takes its comments, its
  likes and the comment_likes on those comments, and nothing else.
 */
module CascadeProperties {
  import opened Seqs
  import opened Tables
  import opened Statements
  import opened Database

  /** With intact foreign keys, the cascade from a post that is not there removes nothing it could reach. */
  lemma DeleteMissingPostReachesNothing(t: Tables, postId: int)
    requires Valid(t) && postId !in PostIds(t)
    ensures CommentIdsOf(t, postId) == {}
    ensures forall c :: c in t.comments ==> c.postId != postId
    ensures forall l :: l in t.likes ==> l.postId != postId
  {
  }

  lemma DeletePostCascadeClosure(db: Db, postId: int)
    requires DbValid(db)
    requires DeletePost(db, postId).result.Ok?
    ensures
      var t, t' := TablesOf(db), TablesOf(DeletePost(db, postId).db);
      && t'.users == t.users
      && (forall p :: p in t'.posts <==> p in t.posts && p.id != postId)
      && (forall c :: c in t'.comments <==> c in t.comments && c.postId != postId)
      && (forall l :: l in t'.likes <==> l in t.likes && l.postId != postId)
      && (forall l :: l in t'.commentLikes <==> l in t.commentLikes && l.commentId !in CommentIdsOf(t, postId))
      && (forall l :: l in t'.commentLikes <==> l in t.commentLikes && l.commentId in CommentIds(t'))
      && Valid(t')
  {
    var t, t' := TablesOf(db), TablesOf(DeletePost(db, postId).db);
    assert t' == DeletePostCascade(t, postId);
    if postId !in PostIds(t) {
      DeleteMissingPostReachesNothing(t, postId);
    }
    forall l | l in t.commentLikes
      ensures l.commentId !in CommentIdsOf(t, postId) <==> l.commentId in CommentIds(t')
    {
      var c :| c in t.comments && c.id == l.commentId;
      if l.commentId in CommentIdsOf(t, postId) {
        var d :| d in t.comments && d.postId == postId && d.id == l.commentId;
        if l.commentId in CommentIds(t') {
          var e :| e in t'.comments && e.id == l.commentId;
          UniqueKeysSameRow(t.comments, CommentKey, d, e);
        }
      } else {
        assert c.postId != postId;
        assert c in t'.comments;
      }
    }
  }

  lemma DeleteCommentCascadeClosure(db: Db, commentId: int)
    requires DbValid(db)
    requires DeleteComment(db, commentId).result.Ok?
    ensures
      var t, t' := TablesOf(db), TablesOf(DeleteComment(db, commentId).db);
      && t' == t.(comments := t'.comments, commentLikes := t'.commentLikes)
      && (forall c :: c in t'.comments <==> c in t.comments && c.id != commentId)
      && (forall l :: l in t'.commentLikes <==> l in t.commentLikes && l.commentId != commentId)
      && Valid(t')
  {
    var t, t' := TablesOf(db), TablesOf(DeleteComment(db, commentId).db);
    assert t' == DeleteCommentCascade(t, commentId);
    if commentId !in CommentIds(t) {
      assert forall l :: l in t.commentLikes ==> l.commentId != commentId;
    }
  }
}

=== FILE: database.dfy ===
/**
  The exported functions of `services/database.ts`. The module-level `db`
  handle is the `open` flag; the database file is the `store`, which has no
  tables until `initDatabase` runs on a blank file. Functions reach the
  handle in one of three ways:
  - `executeSql`, or the same inline `if (!db) throw` check: fail with
    NotInitialized while the handle is null;
  - `db!`: dereference the null handle, a TypeError (NullHandle);
  - `getDb`: open the handle on first use, so never fail for that reason.
 */
module Database {
  import opened Seqs
  import opened Results
  import opened Tables
  import opened Statements
  import opened Queries
  import Invariant

  /** The database file: blank, or holding the five tables. */
  datatype Store = NoTables | Created(tables: Tables)

  datatype Db = Db(open: bool, store: Store)

  /** What a call returns or throws, with the state it leaves behind. */
  datatype Reply<T> = Reply(db: Db, result: Result<T>)

  /** The first launch of the app: no handle and a blank file. */
  const Fresh: Db := Db(false, NoTables)

  predicate DbValid(db: Db) {
    db.store.Created? ==> Valid(db.store.tables)
  }

  /** The rows the file holds; a blank file holds none. */
  function TablesOf(db: Db): Tables {
    if db.store.Created? then db.store.tables else Empty
  }

  /** `getDb`: opens the handle (with foreign keys on) when it is null, else returns it as is. */
  function GetDb(db: Db): (d: Db)
    ensures d.open && d.store == db.store
    ensures db.open ==> d == db
  {
    if db.open then db else db.(open := true)
  }

  /** The guard of `executeSql` and of the inline `if (!db)` checks, then the table lookup. */
  function Executable(db: Db): (r: Result<Tables>)
    ensures !db.open ==> r == Err(NotInitialized)
    ensures r.Ok? <==> db.open && db.store.Created?
    ensures r.Ok? ==> r.value == db.store.tables
  {
    if !db.open then Err(NotInitialized)
    else if db.store.NoTables? then Err(NoSuchTable)
    else Ok(db.store.tables)
  }

  /** A `db!.getAllAsync` / `db!.getFirstAsync` call, then the table lookup. */
  function Readable(db: Db): (r: Result<Tables>)
    ensures !db.open ==> r == Err(NullHandle)
    ensures r.Ok? <==> db.open && db.store.Created?
    ensures r.Ok? ==> r.value == db.store.tables
  {
    if !db.open then Err(NullHandle)
    else if db.store.NoTables? then Err(NoSuchTable)
    else Ok(db.store.tables)
  }

  /** A statement commits its new tables, or throws and changes nothing. */
  function Commit(db: Db, r: Result<Tables>): Reply<()> {
    match r
    case Ok(t) => Reply(db.(store := Created(t)), Ok(()))
    case Err(e) => Reply(db, Err(e))
  }

  /**
    `initDatabase`: opens the handle, creates whichever tables are missing
    and seeds the default user unless its id or email is taken. Rows that
    already exist are kept.
   */
  function InitDatabase(db: Db): (r: Reply<()>)
    ensures r.result.Ok? && r.db.open && r.db.store.Created?
    ensures TablesOf(r.db) == TablesOf(db).(users := TablesOf(r.db).users)
    ensures DbValid(db) ==> DbValid(r.db) && TablesOf(r.db).users == [DefaultUser]
  {
    var t := TablesOf(db);
    Invariant.EmptyValid();
    Invariant.SeedPreservesValid(t);
    Reply(Db(true, Created(SeedDefaultUser(t))), Ok(()))
  }

  /** `getPosts` */
  function GetPosts(db: Db): (r: Result<seq<Post>>)
    ensures !db.open ==> r == Err(NullHandle)
    ensures r.Ok? <==> db.open && db.store.Created?
    ensures r.Ok? ==> multiset(r.value) == multiset(db.store.tables.posts)
    ensures r.Ok? ==> forall i, j :: 0 <= i < j < |r.value| ==> r.value[i].createdAt >= r.value[j].createdAt
  {
    match Readable(db)
    case Err(e) => Err(e)
    case Ok(t) => Ok(PostsNewestFirst(t))
  }

  /**
    `getPostStats`: opens the handle lazily and reads every post with its
    counts; `liked_by_user` is always asked about user 1.
   */
  function GetPostStats(db: Db): (r: Reply<seq<PostStats>>)
    ensures r.db == GetDb(db)
    ensures r.result.Ok? <==> db.store.Created?
    ensures r.result.Err? ==> r.result.error == NoSuchTable
    ensures r.result.Ok? ==> |r.result.value| == |TablesOf(db).posts|
    ensures r.result.Ok? ==>
      forall i, j :: 0 <= i < j < |r.result.value| ==> r.result.value[i].createdAt >= r.result.value[j].createdAt
    ensures r.result.Ok? ==>
      forall p :: p in TablesOf(db).posts ==> StatsOf(TablesOf(db), p, DefaultUserId) in r.result.value
    ensures r.result.Ok? && DbValid(db) ==>
      forall p :: p in TablesOf(db).posts ==> multiset(r.result.value)[StatsOf(TablesOf(db), p, DefaultUserId)] == 1
    ensures r.result.Ok? ==> forall row :: row in r.result.value ==>
      && (exists p :: p in TablesOf(db).posts && p.id == row.id)
      && row.likeCount == |set i | 0 <= i < |TablesOf(db).likes| && TablesOf(db).likes[i].postId == row.id|
      && row.commentCount == |set i | 0 <= i < |TablesOf(db).comments| && TablesOf(db).comments[i].postId == row.id|
      && (row.likedByUser <==> exists l :: l in TablesOf(db).likes && l.postId == row.id && l.userId == DefaultUserId)
  {
    var d := GetDb(db);
    if d.store.NoTables? then Reply(d, Err(NoSuchTable))
    else
      var t := d.store.tables;
      PostStatsListEachPostOnce(t, DefaultUserId);
      Reply(d, Ok(PostStatsRows(t, DefaultUserId)))
  }

  /** `createPost`: opens the handle lazily and inserts the post. */
  function CreatePost(db: Db, userId: int, title: string, content: string, tag: string, now: nat): (r: Reply<()>)
    ensures r.db.open
    ensures r.result.Ok? <==> db.store.Created? && userId in UserIds(db.store.tables)
    ensures r.result.Err? ==> r.db == GetDb(db)
    ensures r.result.Err? ==> r.result.error in {NoSuchTable, ForeignKeyViolation}
    ensures r.result.Ok? ==> exists p :: (p in TablesOf(r.db).posts && p !in TablesOf(db).posts
      && p.userId == userId && p.title == title && p.content == content && p.tag == tag && p.createdAt == now)
    ensures r.result.Ok? ==> |TablesOf(r.db).posts| == |TablesOf(db).posts| + 1
    ensures r.result.Ok? ==> r.db.store.Created?
    ensures r.result.Ok? ==> TablesOf(r.db) == InsertPost(TablesOf(db), userId, title, content, tag, now).value
    ensures r.result.Ok? ==>
      TablesOf(r.db).posts == TablesOf(db).posts + [Post(TablesOf(r.db).postSeq, userId, title, content, tag, now)]
    ensures DbValid(db) ==> DbValid(r.db)
  {
    var d := GetDb(db);
    if d.store.NoTables? then Reply(d, Err(NoSuchTable))
    else
      var t := d.store.tables;
      Invariant.InsertPostPreservesValid(t, userId, title, content, tag, now);
      match InsertPost(t, userId, title, content, tag, now)
      case Err(e) => Reply(d, Err(e))
      case Ok(t') =>
        assert t'.posts[|t.posts|] in t'.posts;
        assert t'.posts[|t.posts|] !in t.posts;
        Reply(d.(store := Created(t')), Ok(()))
  }

  /** `updatePost` */
  function UpdatePost(db: Db, postId: int, title: string, content: string, tag: string): (r: Reply<()>)
    ensures !db.open ==> r == Reply(db, Err(NotInitialized))
    ensures r.result.Ok? <==> db.open && db.store.Created?
    ensures r.result.Err? ==> r.db == db
    ensures r.result.Ok? ==> r.db == Db(true, Created(SetPostFields(TablesOf(db), postId, title, content, tag)))
    ensures postId !in PostIds(TablesOf(db)) ==> r.db == db
    ensures DbValid(db) ==> DbValid(r.db)
  {
    match Executable(db)
    case Err(e) => Reply(db, Err(e))
    case Ok(t) =>
      Invariant.SetPostFieldsPreservesValid(t, postId, title, content, tag);
      Commit(db, Ok(SetPostFields(t, postId, title, content, tag)))
  }

  /** `likePost`: appends a like row without looking for an earlier one. */
  function LikePost(db: Db, postId: int, userId: int, now: nat): (r: Reply<()>)
    ensures !db.open ==> r == Reply(db, Err(NotInitialized))
    ensures r.result.Ok? <==>
      db.open && db.store.Created? && postId in PostIds(db.store.tables) && userId in UserIds(db.store.tables)
    ensures r.result.Err? ==> r.db == db
    ensures r.result.Ok? ==> LikeCount(TablesOf(r.db), postId) == LikeCount(TablesOf(db), postId) + 1
    ensures r.result.Ok? ==> PostLikedBy(TablesOf(r.db), postId, userId)
    ensures r.result.Ok? ==> r.db.open && TablesOf(r.db) == InsertLike(TablesOf(db), postId, userId, now).value
    ensures DbValid(db) ==> DbValid(r.db)
  {
    match Executable(db)
    case Err(e) => Reply(db, Err(e))
    case Ok(t) =>
      Invariant.InsertLikePreservesValid(t, postId, userId, now);
      match InsertLike(t, postId, userId, now)
      case Err(e) => Reply(db, Err(e))
      case Ok(t') =>
        CountAppend(t.likes, t'.likes[|t.likes|], LikeOnPost(postId));
        assert t'.likes[|t.likes|] in t'.likes;
        Reply(db.(store := Created(t')), Ok(()))
  }

  /** `unlikePost`: deletes every like row of the pair. */
  function UnlikePost(db: Db, postId: int, userId: int): (r: Reply<()>)
    ensures !db.open ==> r == Reply(db, Err(NotInitialized))
    ensures r.result.Ok? <==> db.open && db.store.Created?
    ensures r.result.Err? ==> r.db == db
    ensures r.result.Ok? ==> r.db == Db(true, Created(DeleteLikes(TablesOf(db), postId, userId)))
    ensures r.result.Ok? ==> !PostLikedBy(TablesOf(r.db), postId, userId)
    ensures r.result.Ok? ==> TablesOf(r.db) == TablesOf(db).(likes := TablesOf(r.db).likes)
    ensures r.result.Ok? ==> forall l :: l in TablesOf(r.db).likes <==>
      l in TablesOf(db).likes && !(l.postId == postId && l.userId == userId)
    ensures DbValid(db) ==> DbValid(r.db)
  {
    match Executable(db)
    case Err(e) => Reply(db, Err(e))
    case Ok(t) =>
      Invariant.DeleteLikesPreservesValid(t, postId, userId);
      Commit(db, Ok(DeleteLikes(t, postId, userId)))
  }

  /** `deletePost`: guarded inline like `executeSql`; the cascade removes the post's dependants. */
  function DeletePost(db: Db, postId: int): (r: Reply<()>)
    ensures !db.open ==> r == Reply(db, Err(NotInitialized))
    ensures r.result.Ok? <==> db.open && db.store.Created?
    ensures r.result.Err? ==> r.db == db
    ensures r.result.Ok? ==> r.db == Db(true, Created(DeletePostCascade(TablesOf(db), postId)))
    ensures r.result.Ok? ==> postId !in PostIds(TablesOf(r.db))
    ensures DbValid(db) ==> DbValid(r.db)
  {
    match Executable(db)
    case Err(e) => Reply(db, Err(e))
    case Ok(t) =>
      Invariant.DeletePostCascadePreservesValid(t, postId);
      Commit(db, Ok(DeletePostCascade(t, postId)))
  }

  /** `isPostLikedByUser` */
  function IsPostLikedByUser(db: Db, postId: int, userId: int): (r: Result<bool>)
    ensures !db.open ==> r == Err(NullHandle)
    ensures r.Ok? <==> db.open && db.store.Created?
    ensures r.Ok? ==> (r.value <==> exists l :: l in TablesOf(db).likes && l.postId == postId && l.userId == userId)
  {
    match Readable(db)
    case Err(e) => Err(e)
    case Ok(t) => Ok(PostLikedBy(t, postId, userId))
  }

  /** `getLikeCount`; `result?.count || 0` is the count itself, since COUNT(*) always yields a row. */
  function GetLikeCount(db: Db, postId: int): (r: Result<nat>)
    ensures !db.open ==> r == Err(NullHandle)
    ensures r.Ok? <==> db.open && db.store.Created?
    ensures r.Ok? ==> r.value == |set i | 0 <= i < |TablesOf(db).likes| && TablesOf(db).likes[i].postId == postId|
  {
    match Readable(db)
    case Err(e) => Err(e)
    case Ok(t) =>
      assert TablesOf(db) == t;
      Ok(LikeCount(t, postId))
  }

  /** `createComment` */
  function CreateComment(db: Db, postId: int, content: string, userId: int, now: nat): (r: Reply<()>)
    ensures !db.open ==> r == Reply(db, Err(NotInitialized))
    ensures r.result.Ok? <==>
      db.open && db.store.Created? && postId in PostIds(db.store.tables) && userId in UserIds(db.store.tables)
    ensures r.result.Err? ==> r.db == db
    ensures r.result.Ok? ==> CommentCount(TablesOf(r.db), postId) == CommentCount(TablesOf(db), postId) + 1
    ensures r.result.Ok? ==> r.db.open && TablesOf(r.db) == InsertComment(TablesOf(db), postId, userId, content, now).value
    ensures r.result.Ok? ==>
      TablesOf(r.db).comments == TablesOf(db).comments + [Comment(TablesOf(r.db).commentSeq, postId, userId, content, now)]
    ensures DbValid(db) ==> DbValid(r.db)
  {
    match Executable(db)
    case Err(e) => Reply(db, Err(e))
    case Ok(t) =>
      Invariant.InsertCommentPreservesValid(t, postId, userId, content, now);
      match InsertComment(t, postId, userId, content, now)
      case Err(e) => Reply(db, Err(e))
      case Ok(t') =>
        CountAppend(t.comments, t'.comments[|t.comments|], CommentOnPost(postId));
        Reply(db.(store := Created(t')), Ok(()))
  }

  /** `getCommentsByPost` */
  function GetCommentsByPost(db: Db, postId: int, userId: int): (r: Result<seq<CommentStats>>)
    ensures !db.open ==> r == Err(NullHandle)
    ensures r.Ok? <==> db.open && db.store.Created?
    ensures r.Ok? ==> |r.value| == CommentCount(TablesOf(db), postId)
    ensures r.Ok? ==> forall i, j :: 0 <= i < j < |r.value| ==> r.value[i].createdAt <= r.value[j].createdAt
    ensures r.Ok? ==> forall c :: c in TablesOf(db).comments && c.postId == postId ==>
      CommentStatsOf(TablesOf(db), c, userId) in r.value
    ensures r.Ok? ==> forall row :: row in r.value ==>
      && (exists c :: c in TablesOf(db).comments && c.postId == postId && c.id == row.id)
      && row.postId == postId
      && row.likeCount == |set i | 0 <= i < |TablesOf(db).commentLikes| && TablesOf(db).commentLikes[i].commentId == row.id|
      && (row.likedByUser <==> exists l :: l in TablesOf(db).commentLikes && l.commentId == row.id && l.userId == userId)
  {
    match Readable(db)
    case Err(e) => Err(e)
    case Ok(t) => Ok(CommentsOfPost(t, postId, userId))
  }

  /** `likeComment`: appends a comment_likes row without looking for an earlier one. */
  function LikeComment(db: Db, commentId: int, userId: int, now: nat): (r: Reply<()>)
    ensures !db.open ==> r == Reply(db, Err(NotInitialized))
    ensures r.result.Ok? <==>
      db.open && db.store.Created? && commentId in CommentIds(db.store.tables) && userId in UserIds(db.store.tables)
    ensures r.result.Err? ==> r.db == db
    ensures r.result.Ok? ==>
      CommentLikeCount(TablesOf(r.db), commentId) == CommentLikeCount(TablesOf(db), commentId) + 1
    ensures r.result.Ok? ==> CommentLikedBy(TablesOf(r.db), commentId, userId)
    ensures r.result.Ok? ==>
      r.db.open && TablesOf(r.db) == InsertCommentLike(TablesOf(db), commentId, userId, now).value
    ensures DbValid(db) ==> DbValid(r.db)
  {
    match Executable(db)
    case Err(e) => Reply(db, Err(e))
    case Ok(t) =>
      Invariant.InsertCommentLikePreservesValid(t, commentId, userId, now);
      match InsertCommentLike(t, commentId, userId, now)
      case Err(e) => Reply(db, Err(e))
      case Ok(t') =>
        CountAppend(t.commentLikes, t'.commentLikes[|t.commentLikes|], CommentLikeOn(commentId));
        assert t'.commentLikes[|t.commentLikes|] in t'.commentLikes;
        Reply(db.(store := Created(t')), Ok(()))
  }

  /** `unlikeComment`: deletes every comment_likes row of the pair. */
  function UnlikeComment(db: Db, commentId: int, userId: int): (r: Reply<()>)
    ensures !db.open ==> r == Reply(db, Err(NotInitialized))
    ensures r.result.Ok? <==> db.open && db.store.Created?
    ensures r.result.Err? ==> r.db == db
    ensures r.result.Ok? ==> r.db == Db(true, Created(DeleteCommentLikes(TablesOf(db), commentId, userId)))
    ensures r.result.Ok? ==> !CommentLikedBy(TablesOf(r.db), commentId, userId)
    ensures r.result.Ok? ==> TablesOf(r.db) == TablesOf(db).(commentLikes := TablesOf(r.db).commentLikes)
    ensures r.result.Ok? ==> forall l :: l in TablesOf(r.db).commentLikes <==>
      l in TablesOf(db).commentLikes && !(l.commentId == commentId && l.userId == userId)
    ensures DbValid(db) ==> DbValid(r.db)
  {
    match Executable(db)
    case Err(e) => Reply(db, Err(e))
    case Ok(t) =>
      Invariant.DeleteCommentLikesPreservesValid(t, commentId, userId);
      Commit(db, Ok(DeleteCommentLikes(t, commentId, userId)))
  }

  /** `updateComment`: guarded inline like `executeSql`. */
  function UpdateComment(db: Db, commentId: int, newContent: string): (r: Reply<()>)
    ensures !db.open ==> r == Reply(db, Err(NotInitialized))
    ensures r.result.Ok? <==> db.open && db.store.Created?
    ensures r.result.Err? ==> r.db == db
    ensures r.result.Ok? ==> r.db == Db(true, Created(SetCommentContent(TablesOf(db), commentId, newContent)))
    ensures commentId !in CommentIds(TablesOf(db)) ==> r.db == db
    ensures DbValid(db) ==> DbValid(r.db)
  {
    match Executable(db)
    case Err(e) => Reply(db, Err(e))
    case Ok(t) =>
      Invariant.SetCommentContentPreservesValid(t, commentId, newContent);
      Commit(db, Ok(SetCommentContent(t, commentId, newContent)))
  }

  /** `deleteComment`: guarded inline like `executeSql`; the cascade removes its comment_likes. */
  function DeleteComment(db: Db, commentId: int): (r: Reply<()>)
    ensures !db.open ==> r == Reply(db, Err(NotInitialized))
    ensures r.result.Ok? <==> db.open && db.store.Created?
    ensures r.result.Err? ==> r.db == db
    ensures r.result.Ok? ==> r.db == Db(true, Created(DeleteCommentCascade(TablesOf(db), commentId)))
    ensures r.result.Ok? ==> commentId !in CommentIds(TablesOf(r.db))
    ensures DbValid(db) ==> DbValid(r.db)
  {
    match Executable(db)
    case Err(e) => Reply(db, Err(e))
    case Ok(t) =>
      Invariant.DeleteCommentCascadePreservesValid(t, commentId);
      Commit(db, Ok(DeleteCommentCascade(t, commentId)))
  }

  /** `isCommentLikedByUser` */
  function IsCommentLikedByUser(db: Db, commentId: int, userId: int): (r: Result<bool>)
    ensures !db.open ==> r == Err(NullHandle)
    ensures r.Ok? <==> db.open && db.store.Created?
    ensures r.Ok? ==>
      (r.value <==> exists l :: l in TablesOf(db).commentLikes && l.commentId == commentId && l.userId == userId)
  {
    match Readable(db)
    case Err(e) => Err(e)
    case Ok(t) => Ok(CommentLikedBy(t, commentId, userId))
  }
}

=== FILE: invariant.dfy ===
/** Every statement keeps the schema's constraints: unique keys and intact foreign keys. */
module Invariant {
  import opened Seqs
  import opened Tables
  import opened Statements

  lemma EmptyValid()
    ensures Valid(Empty)
  {
  }

  lemma SeedPreservesValid(t: Tables)
    ensures Valid(t) ==> Valid(SeedDefaultUser(t))
  {
  }

  lemma InsertPostPreservesValid(t: Tables, userId: int, title: string, content: string, tag: string, now: nat)
    ensures Valid(t) && InsertPost(t, userId, title, content, tag, now).Ok? ==>
      Valid(InsertPost(t, userId, title, content, tag, now).value)
  {
    if Valid(t) && InsertPost(t, userId, title, content, tag, now).Ok? {
      var r := InsertPost(t, userId, title, content, tag, now).value;
      assert PostIds(t) <= PostIds(r);
    }
  }

  lemma SetPostFieldsPreservesValid(t: Tables, id: int, title: string, content: string, tag: string)
    ensures Valid(t) ==> Valid(SetPostFields(t, id, title, content, tag))
  {
    if Valid(t) {
      var r := SetPostFields(t, id, title, content, tag);
      assert PostIds(r) == PostIds(t) by {
        forall k | k in PostIds(t) ensures k in PostIds(r) {
          var i :| 0 <= i < |t.posts| && t.posts[i].id == k;
          assert r.posts[i] in r.posts;
        }
        forall k | k in PostIds(r) ensures k in PostIds(t) {
          var i :| 0 <= i < |r.posts| && r.posts[i].id == k;
          assert t.posts[i] in t.posts;
        }
      }
      forall p | p in r.posts ensures p.userId in UserIds(r) {
        var i :| 0 <= i < |r.posts| && r.posts[i] == p;
        assert t.posts[i] in t.posts;
      }
    }
  }

  lemma DeletePostCascadePreservesValid(t: Tables, id: int)
    ensures Valid(t) ==> Valid(DeletePostCascade(t, id))
  {
    if Valid(t) {
      var r := DeletePostCascade(t, id);
      if id in PostIds(t) {
        FilterUniqueKeys(t.posts, Not(PostWithId(id)), PostKey);
        FilterUniqueKeys(t.comments, Not(CommentOnPost(id)), CommentKey);
        FilterUniqueKeys(t.likes, Not(LikeOnPost(id)), LikeKey);
        FilterUniqueKeys(t.commentLikes, Not(CommentLikeOnAny(CommentIdsOf(t, id))), CommentLikeKey);
        forall c | c in r.comments ensures c.postId in PostIds(r) {
          var p :| p in t.posts && p.id == c.postId;
          assert p in r.posts;
        }
        forall l | l in r.likes ensures l.postId in PostIds(r) {
          var p :| p in t.posts && p.id == l.postId;
          assert p in r.posts;
        }
        forall l | l in r.commentLikes ensures l.commentId in CommentIds(r) {
          var c :| c in t.comments && c.id == l.commentId;
          assert c.postId != id;
          assert c in r.comments;
        }
      }
    }
  }

  lemma InsertLikePreservesValid(t: Tables, postId: int, userId: int, now: nat)
    ensures Valid(t) && InsertLike(t, postId, userId, now).Ok? ==> Valid(InsertLike(t, postId, userId, now).value)
  {
  }

  lemma DeleteLikesPreservesValid(t: Tables, postId: int, userId: int)
    ensures Valid(t) ==> Valid(DeleteLikes(t, postId, userId))
  {
    if Valid(t) {
      var r := DeleteLikes(t, postId, userId);
      assert r.likes == Filter(t.likes, Not(LikeBy(postId, userId)));
      FilterUniqueKeys(t.likes, Not(LikeBy(postId, userId)), LikeKey);
      assert UniqueKeys(r.likes, LikeKey);
      assert r == t.(likes := r.likes);
      assert PostIds(r) == PostIds(t) && UserIds(r) == UserIds(t);
      forall l | l in r.likes ensures l.postId in PostIds(r) && l.userId in UserIds(r) {
        assert l in t.likes;
      }
      assert r.users == t.users && r.posts == t.posts && r.comments == t.comments;
      assert r.commentLikes == t.commentLikes;
      assert (forall p :: p in r.posts ==> p.userId in UserIds(r));
      assert (forall c :: c in r.comments ==> c.postId in PostIds(r) && c.userId in UserIds(r));
      assert (forall l :: l in r.commentLikes ==> l.commentId in CommentIds(r) && l.userId in UserIds(r));
    }
  }

  lemma InsertCommentPreservesValid(t: Tables, postId: int, userId: int, content: string, now: nat)
    ensures Valid(t) && InsertComment(t, postId, userId, content, now).Ok? ==>
      Valid(InsertComment(t, postId, userId, content, now).value)
  {
    if Valid(t) && InsertComment(t, postId, userId, content, now).Ok? {
      var r := InsertComment(t, postId, userId, content, now).value;
      assert CommentIds(t) <= CommentIds(r);
    }
  }

  lemma SetCommentContentPreservesValid(t: Tables, id: int, content: string)
    ensures Valid(t) ==> Valid(SetCommentContent(t, id, content))
  {
    if Valid(t) {
      var r := SetCommentContent(t, id, content);
      assert CommentIds(r) == CommentIds(t) by {
        forall k | k in CommentIds(t) ensures k in CommentIds(r) {
          var i :| 0 <= i < |t.comments| && t.comments[i].id == k;
          assert r.comments[i] in r.comments;
        }
        forall k | k in CommentIds(r) ensures k in CommentIds(t) {
          var i :| 0 <= i < |r.comments| && r.comments[i].id == k;
          assert t.comments[i] in t.comments;
        }
      }
      forall c | c in r.comments ensures c.postId in PostIds(r) && c.userId in UserIds(r) {
        var i :| 0 <= i < |r.comments| && r.comments[i] == c;
        assert t.comments[i] in t.comments;
      }
    }
  }

  lemma DeleteCommentCascadePreservesValid(t: Tables, id: int)
    ensures Valid(t) ==> Valid(DeleteCommentCascade(t, id))
  {
    if Valid(t) {
      var r := DeleteCommentCascade(t, id);
      if id in CommentIds(t) {
        FilterUniqueKeys(t.comments, Not(CommentWithId(id)), CommentKey);
        FilterUniqueKeys(t.commentLikes, Not(CommentLikeOn(id)), CommentLikeKey);
        forall l | l in r.commentLikes ensures l.commentId in CommentIds(r) {
          var c :| c in t.comments && c.id == l.commentId;
          assert c in r.comments;
        }
      }
    }
  }

  lemma InsertCommentLikePreservesValid(t: Tables, commentId: int, userId: int, now: nat)
    ensures Valid(t) && InsertCommentLike(t, commentId, userId, now).Ok? ==>
      Valid(InsertCommentLike(t, commentId, userId, now).value)
  {
  }

  lemma DeleteCommentLikesPreservesValid(t: Tables, commentId: int, userId: int)
    ensures Valid(t) ==> Valid(DeleteCommentLikes(t, commentId, userId))
  {
    if Valid(t) {
      var r := DeleteCommentLikes(t, commentId, userId);
      assert r.commentLikes == Filter(t.commentLikes, Not(CommentLikeBy(commentId, userId)));
      FilterUniqueKeys(t.commentLikes, Not(CommentLikeBy(commentId, userId)), CommentLikeKey);
      assert UniqueKeys(r.commentLikes, CommentLikeKey);
      assert r == t.(commentLikes := r.commentLikes);
      assert CommentIds(r) == CommentIds(t) && UserIds(r) == UserIds(t);
      forall l | l in r.commentLikes ensures l.commentId in CommentIds(r) && l.userId in UserIds(r) {
        assert l in t.commentLikes;
      }
    }
  }
}

=== FILE: lifecycle.dfy ===
/**
  Start-up: the app calls `initDatabase` each time it starts, in a new
  process whose `db` handle is null while the database file persists.
 */
module Lifecycle {
  import opened Tables
  import opened Statements
  import opened Database

  /** A new process: the module-level handle starts out null; the file is kept. */
  function Restart(db: Db): (d: Db)
    ensures !d.open && d.store == db.store
  {
    db.(open := false)
  }

  /** `n` app starts in a row, each running `initDatabase` in a fresh process. */
  function Launches(db: Db, n: nat): Db
    decreases n
  {
    if n == 0 then db else Launches(InitDatabase(Restart(db)).db, n - 1)
  }

  /** A second `initDatabase` finds every table and the seeded user, and changes nothing. */
  lemma InitDatabaseIdempotent(db: Db)
    ensures InitDatabase(InitDatabase(db).db) == InitDatabase(db)
  {
    var t := SeedDefaultUser(TablesOf(db));
    assert SeedConflict(t);
  }

  /** `initDatabase` only reads the file, so whether the handle was open does not matter. */
  lemma InitDatabaseIgnoresHandle(db: Db)
    ensures InitDatabase(Restart(db)) == InitDatabase(db)
  {
  }

  /**
    However many times the app starts, the state is the one the first start
    left, and exactly one user row has id 1.
   */
  lemma {:induction false} RepeatedLaunches(db: Db, n: nat)
    requires DbValid(db) && n >= 1
    decreases n
    ensures Launches(db, n) == InitDatabase(db).db
    ensures |set i | 0 <= i < |TablesOf(Launches(db, n)).users| && TablesOf(Launches(db, n)).users[i].id == DefaultUserId| == 1
  {
    var once := InitDatabase(db).db;
    InitDatabaseIgnoresHandle(db);
    if n > 1 {
      RepeatedLaunches(once, n - 1);
      InitDatabaseIgnoresHandle(once);
      InitDatabaseIdempotent(db);
    }
    assert TablesOf(once).users == [DefaultUser];
    assert (set i | 0 <= i < |TablesOf(once).users| && TablesOf(once).users[i].id == DefaultUserId) == {0};
  }
}

=== FILE: likes.dfy ===
/**
  Likes are rows, not flags, and nothing stops a second like of the same
  pair. So like-then-unlike restores a like count only when the user had
  not liked the post (or comment) before.
 */
module LikeProperties {
  import opened Seqs
  import opened Tables
  import opened Statements
  import opened Queries
  import opened Database

  /** The number of like rows `userId` holds on `postId`. */
  function PairLikes(t: Tables, postId: int, userId: int): nat {
    |set i | 0 <= i < |t.likes| && t.likes[i].postId == postId && t.likes[i].userId == userId|
  }

  /** The number of comment_likes rows `userId` holds on `commentId`. */
  function PairCommentLikes(t: Tables, commentId: int, userId: int): nat {
    |set i | 0 <= i < |t.commentLikes| && t.commentLikes[i].commentId == commentId && t.commentLikes[i].userId == userId|
  }

  lemma PairLikesCount(t: Tables, postId: int, userId: int)
    ensures PairLikes(t, postId, userId) == Count(t.likes, LikeBy(postId, userId))
  {
    CountIsCardinality(t.likes, LikeBy(postId, userId));
    assert Matching(t.likes, LikeBy(postId, userId))
      == set i | 0 <= i < |t.likes| && t.likes[i].postId == postId && t.likes[i].userId == userId;
  }

  lemma PairCommentLikesCount(t: Tables, commentId: int, userId: int)
    ensures PairCommentLikes(t, commentId, userId) == Count(t.commentLikes, CommentLikeBy(commentId, userId))
  {
    CountIsCardinality(t.commentLikes, CommentLikeBy(commentId, userId));
    assert Matching(t.commentLikes, CommentLikeBy(commentId, userId))
      == set i | 0 <= i < |t.commentLikes| && t.commentLikes[i].commentId == commentId && t.commentLikes[i].userId == userId;
  }

  /**
    `likePost` then `unlikePost` removes the new row and every earlier like of
    the pair: the count comes back exactly when there was none.
   */
  lemma LikeThenUnlikePost(db: Db, postId: int, userId: int, now: nat)
    requires db.open && db.store.Created?
    requires postId in PostIds(db.store.tables) && userId in UserIds(db.store.tables)
    ensures UnlikePost(LikePost(db, postId, userId, now).db, postId, userId).result.Ok?
    ensures
      var after := TablesOf(UnlikePost(LikePost(db, postId, userId, now).db, postId, userId).db);
      && LikeCount(after, postId) + PairLikes(TablesOf(db), postId, userId) == LikeCount(TablesOf(db), postId)
      && (LikeCount(after, postId) == LikeCount(TablesOf(db), postId) <==> !PostLikedBy(TablesOf(db), postId, userId))
      && !PostLikedBy(after, postId, userId)
  {
    var t := TablesOf(db);
    var t1 := InsertLike(t, postId, userId, now).value;
    assert TablesOf(LikePost(db, postId, userId, now).db) == t1;
    var x := t1.likes[|t.likes|];
    assert t1.likes == t.likes + [x];
    AppendThenDelete(t.likes, x, LikeBy(postId, userId), LikeOnPost(postId));
    PairLikesCount(t, postId, userId);
  }

  /** `likePost` twice for the same pair leaves two more rows of that pair. */
  lemma LikePostTwice(db: Db, postId: int, userId: int, now1: nat, now2: nat)
    requires db.open && db.store.Created?
    requires postId in PostIds(db.store.tables) && userId in UserIds(db.store.tables)
    ensures LikePost(LikePost(db, postId, userId, now1).db, postId, userId, now2).result.Ok?
    ensures
      var after := TablesOf(LikePost(LikePost(db, postId, userId, now1).db, postId, userId, now2).db);
      && PairLikes(after, postId, userId) == PairLikes(TablesOf(db), postId, userId) + 2
      && LikeCount(after, postId) == LikeCount(TablesOf(db), postId) + 2
  {
    var t := TablesOf(db);
    var t1 := InsertLike(t, postId, userId, now1).value;
    var t2 := InsertLike(t1, postId, userId, now2).value;
    assert TablesOf(LikePost(LikePost(db, postId, userId, now1).db, postId, userId, now2).db) == t2;
    CountAppend(t.likes, t1.likes[|t.likes|], LikeBy(postId, userId));
    CountAppend(t1.likes, t2.likes[|t1.likes|], LikeBy(postId, userId));
    PairLikesCount(t, postId, userId);
    PairLikesCount(t2, postId, userId);
  }

  /** The comment counterpart of `LikeThenUnlikePost`. */
  lemma LikeThenUnlikeComment(db: Db, commentId: int, userId: int, now: nat)
    requires db.open && db.store.Created?
    requires commentId in CommentIds(db.store.tables) && userId in UserIds(db.store.tables)
    ensures UnlikeComment(LikeComment(db, commentId, userId, now).db, commentId, userId).result.Ok?
    ensures
      var after := TablesOf(UnlikeComment(LikeComment(db, commentId, userId, now).db, commentId, userId).db);
      && CommentLikeCount(after, commentId) + PairCommentLikes(TablesOf(db), commentId, userId)
         == CommentLikeCount(TablesOf(db), commentId)
      && (CommentLikeCount(after, commentId) == CommentLikeCount(TablesOf(db), commentId)
          <==> !CommentLikedBy(TablesOf(db), commentId, userId))
      && !CommentLikedBy(after, commentId, userId)
  {
    var t := TablesOf(db);
    var t1 := InsertCommentLike(t, commentId, userId, now).value;
    assert TablesOf(LikeComment(db, commentId, userId, now).db) == t1;
    var x := t1.commentLikes[|t.commentLikes|];
    assert t1.commentLikes == t.commentLikes + [x];
    AppendThenDelete(t.commentLikes, x, CommentLikeBy(commentId, userId), CommentLikeOn(commentId));
    PairCommentLikesCount(t, commentId, userId);
  }

  /** `likeComment` twice for the same pair leaves two more rows of that pair. */
  lemma LikeCommentTwice(db: Db, commentId: int, userId: int, now1: nat, now2: nat)
    requires db.open && db.store.Created?
    requires commentId in CommentIds(db.store.tables) && userId in UserIds(db.store.tables)
    ensures LikeComment(LikeComment(db, commentId, userId, now1).db, commentId, userId, now2).result.Ok?
    ensures
      var after := TablesOf(LikeComment(LikeComment(db, commentId, userId, now1).db, commentId, userId, now2).db);
      && PairCommentLikes(after, commentId, userId) == PairCommentLikes(TablesOf(db), commentId, userId) + 2
      && CommentLikeCount(after, commentId) == CommentLikeCount(TablesOf(db), commentId) + 2
  {
    var t := TablesOf(db);
    var t1 := InsertCommentLike(t, commentId, userId, now1).value;
    var t2 := InsertCommentLike(t1, commentId, userId, now2).value;
    assert TablesOf(LikeComment(LikeComment(db, commentId, userId, now1).db, commentId, userId, now2).db) == t2;
    CountAppend(t.commentLikes, t1.commentLikes[|t.commentLikes|], CommentLikeBy(commentId, userId));
    CountAppend(t1.commentLikes, t2.commentLikes[|t1.commentLikes|], CommentLikeBy(commentId, userId));
    PairCommentLikesCount(t, commentId, userId);
    PairCommentLikesCount(t2, commentId, userId);
  }
}

=== FILE: queries.dfy ===
/**
  The read queries of `services/database.ts`: plain lookups and the two
  aggregate queries whose per-row counts are correlated subqueries.
 */
module Queries {
  import opened Seqs
  import opened Tables

  /** A row of `getPostStats`: the post's columns plus its three subquery columns. */
  datatype PostStats = PostStats(
    id: int, userId: int, title: string, content: string, tag: string, createdAt: nat,
    likeCount: nat, commentCount: nat, likedByUser: bool)

  /** A row of `getCommentsByPost`: the comment's columns plus its two subquery columns. */
  datatype CommentStats = CommentStats(
    id: int, userId: int, postId: int, content: string, createdAt: nat,
    likeCount: nat, likedByUser: bool)

  /** `SELECT COUNT(*) FROM likes WHERE post_id = ?` */
  function LikeCount(t: Tables, postId: int): (n: nat)
    ensures n == |set i | 0 <= i < |t.likes| && t.likes[i].postId == postId|
  {
    CountIsCardinality(t.likes, LikeOnPost(postId));
    assert Matching(t.likes, LikeOnPost(postId)) == set i | 0 <= i < |t.likes| && t.likes[i].postId == postId;
    Count(t.likes, LikeOnPost(postId))
  }

  /** `SELECT COUNT(*) FROM comments WHERE post_id = ?` */
  function CommentCount(t: Tables, postId: int): (n: nat)
    ensures n == |set i | 0 <= i < |t.comments| && t.comments[i].postId == postId|
  {
    CountIsCardinality(t.comments, CommentOnPost(postId));
    assert Matching(t.comments, CommentOnPost(postId)) == set i | 0 <= i < |t.comments| && t.comments[i].postId == postId;
    Count(t.comments, CommentOnPost(postId))
  }

  /** `SELECT 1 FROM likes WHERE post_id = ? AND user_id = ?` has a row */
  function PostLikedBy(t: Tables, postId: int, userId: int): (b: bool)
    ensures b <==> exists l :: l in t.likes && l.postId == postId && l.userId == userId
  {
    var b := Any(t.likes, LikeBy(postId, userId));
    assert b ==> exists l :: l in t.likes && l.postId == postId && l.userId == userId;
    b
  }

  /** `SELECT COUNT(*) FROM comment_likes WHERE comment_id = ?` */
  function CommentLikeCount(t: Tables, commentId: int): (n: nat)
    ensures n == |set i | 0 <= i < |t.commentLikes| && t.commentLikes[i].commentId == commentId|
  {
    CountIsCardinality(t.commentLikes, CommentLikeOn(commentId));
    assert Matching(t.commentLikes, CommentLikeOn(commentId))
      == set i | 0 <= i < |t.commentLikes| && t.commentLikes[i].commentId == commentId;
    Count(t.commentLikes, CommentLikeOn(commentId))
  }

  /** `SELECT 1 FROM comment_likes WHERE comment_id = ? AND user_id = ?` has a row */
  function CommentLikedBy(t: Tables, commentId: int, userId: int): (b: bool)
    ensures b <==> exists l :: l in t.commentLikes && l.commentId == commentId && l.userId == userId
  {
    var b := Any(t.commentLikes, CommentLikeBy(commentId, userId));
    assert b ==> exists l :: l in t.commentLikes && l.commentId == commentId && l.userId == userId;
    b
  }

  /** One post with its `like_count`, `comment_count` and `liked_by_user` for `viewer`. */
  function StatsOf(t: Tables, p: Post, viewer: int): PostStats {
    PostStats(p.id, p.userId, p.title, p.content, p.tag, p.createdAt,
              LikeCount(t, p.id), CommentCount(t, p.id), PostLikedBy(t, p.id, viewer))
  }

  /** One comment with its `like_count` and `liked_by_user` for `viewer`. */
  function CommentStatsOf(t: Tables, c: Comment, viewer: int): CommentStats {
    CommentStats(c.id, c.userId, c.postId, c.content, c.createdAt,
                 CommentLikeCount(t, c.id), CommentLikedBy(t, c.id, viewer))
  }

  // Sort keys: `ORDER BY created_at DESC` is ascending order of the negated tick.
  function PostNewestFirst(p: Post): int { 0 - p.createdAt as int }
  function StatsNewestFirst(r: PostStats): int { 0 - r.createdAt as int }
  function CommentOldestFirst(r: CommentStats): int { r.createdAt }

  /** `SELECT ... FROM posts ORDER BY created_at DESC` */
  function PostsNewestFirst(t: Tables): (r: seq<Post>)
    ensures multiset(r) == multiset(t.posts)
    ensures forall i, j :: 0 <= i < j < |r| ==> r[i].createdAt >= r[j].createdAt
  {
    var r := SortByKey(t.posts, PostNewestFirst);
    assert forall i, j :: 0 <= i < j < |r| ==> PostNewestFirst(r[i]) <= PostNewestFirst(r[j]);
    r
  }

  /** Every post of the table with its subquery columns, in rowid order. */
  function AllPostStats(t: Tables, viewer: int): (r: seq<PostStats>)
    ensures |r| == |t.posts|
    ensures forall i :: 0 <= i < |t.posts| ==> r[i] == StatsOf(t, t.posts[i], viewer)
    ensures forall r' :: r' in r ==> exists p :: p in t.posts && r' == StatsOf(t, p, viewer)
    ensures forall p :: p in t.posts ==> StatsOf(t, p, viewer) in r
  {
    var r := seq(|t.posts|, i requires 0 <= i < |t.posts| => StatsOf(t, t.posts[i], viewer));
    assert forall i :: 0 <= i < |t.posts| ==> t.posts[i] in t.posts;
    assert forall p :: p in t.posts ==> StatsOf(t, p, viewer) in r by {
      forall p | p in t.posts ensures StatsOf(t, p, viewer) in r {
        var i :| 0 <= i < |t.posts| && t.posts[i] == p;
        assert r[i] == StatsOf(t, p, viewer);
      }
    }
    r
  }

  /** The `getPostStats` query for `viewer`: one row per post, newest first. */
  function PostStatsRows(t: Tables, viewer: int): (rows: seq<PostStats>)
    ensures |rows| == |t.posts|
    ensures forall i, j :: 0 <= i < j < |rows| ==> rows[i].createdAt >= rows[j].createdAt
    ensures forall r :: r in rows ==> exists p :: p in t.posts && r == StatsOf(t, p, viewer)
    ensures forall p :: p in t.posts ==> StatsOf(t, p, viewer) in rows
  {
    var all := AllPostStats(t, viewer);
    var rows := SortByKey(all, StatsNewestFirst);
    NewestFirstOrder(rows);
    SameElements(rows, all);
    rows
  }

  lemma NewestFirstOrder(rows: seq<PostStats>)
    requires SortedBy(rows, StatsNewestFirst)
    ensures forall i, j :: 0 <= i < j < |rows| ==> rows[i].createdAt >= rows[j].createdAt
  {
    forall i, j | 0 <= i < j < |rows| ensures rows[i].createdAt >= rows[j].createdAt {
      assert StatsNewestFirst(rows[i]) <= StatsNewestFirst(rows[j]);
    }
  }

  /** The comments of one post with their subquery columns, in rowid order. */
  function AllCommentStats(t: Tables, postId: int, viewer: int): (r: seq<CommentStats>)
    ensures |r| == CommentCount(t, postId)
    ensures forall r' :: r' in r ==>
      exists c :: c in t.comments && c.postId == postId && r' == CommentStatsOf(t, c, viewer)
    ensures forall c :: c in t.comments && c.postId == postId ==> CommentStatsOf(t, c, viewer) in r
  {
    var cs := Filter(t.comments, CommentOnPost(postId));
    var r := seq(|cs|, i requires 0 <= i < |cs| => CommentStatsOf(t, cs[i], viewer));
    assert forall i :: 0 <= i < |cs| ==> cs[i] in cs;
    assert forall c :: c in t.comments && c.postId == postId ==> CommentStatsOf(t, c, viewer) in r by {
      forall c | c in t.comments && c.postId == postId ensures CommentStatsOf(t, c, viewer) in r {
        assert c in cs;
        var i :| 0 <= i < |cs| && cs[i] == c;
        assert r[i] == CommentStatsOf(t, c, viewer);
      }
    }
    r
  }

  /** The `getCommentsByPost` query: the post's comments for `viewer`, oldest first. */
  function CommentsOfPost(t: Tables, postId: int, viewer: int): (rows: seq<CommentStats>)
    ensures |rows| == CommentCount(t, postId)
    ensures forall i, j :: 0 <= i < j < |rows| ==> rows[i].createdAt <= rows[j].createdAt
    ensures forall r :: r in rows ==>
      exists c :: c in t.comments && c.postId == postId && r == CommentStatsOf(t, c, viewer)
    ensures forall c :: c in t.comments && c.postId == postId ==> CommentStatsOf(t, c, viewer) in rows
  {
    var all := AllCommentStats(t, postId, viewer);
    var rows := SortByKey(all, CommentOldestFirst);
    OldestFirstOrder(rows);
    SameElements(rows, all);
    rows
  }

  lemma OldestFirstOrder(rows: seq<CommentStats>)
    requires SortedBy(rows, CommentOldestFirst)
    ensures forall i, j :: 0 <= i < j < |rows| ==> rows[i].createdAt <= rows[j].createdAt
  {
    forall i, j | 0 <= i < j < |rows| ensures rows[i].createdAt <= rows[j].createdAt {
      assert CommentOldestFirst(rows[i]) <= CommentOldestFirst(rows[j]);
    }
  }

  /** With unique post ids, `getPostStats` lists every post exactly once. */
  lemma PostStatsListEachPostOnce(t: Tables, viewer: int)
    ensures UniqueKeys(t.posts, PostKey) ==>
      forall p :: p in t.posts ==> multiset(PostStatsRows(t, viewer))[StatsOf(t, p, viewer)] == 1
  {
    if UniqueKeys(t.posts, PostKey) {
      var all := AllPostStats(t, viewer);
      assert forall i :: 0 <= i < |all| ==> all[i].id == t.posts[i].id;
      UniqueKeysOccurOnce(all, StatsKey);
      forall p | p in t.posts
        ensures multiset(PostStatsRows(t, viewer))[StatsOf(t, p, viewer)] == 1
      {
        var i :| 0 <= i < |t.posts| && t.posts[i] == p;
        assert all[i] == StatsOf(t, p, viewer);
      }
    }
  }

  function StatsKey(r: PostStats): int { r.id }
}

=== FILE: results.dfy ===
/** Failure values of the data-access layer. */
module Results {

  /** Why a call into the data layer throws. */
  datatype Error =
    | NotInitialized       // `executeSql`, or an inline `if (!db)` check, found no open handle
    | NullHandle           // a `db!` call dereferenced the still-null handle (a TypeError at run time)
    | NoSuchTable          // the statement names a table the database file does not have yet
    | ForeignKeyViolation  // an inserted row references a parent row that does not exist

  datatype Result<T> = Ok(value: T) | Err(error: Error)
}

=== FILE: scenario.dfy ===
/** Concrete traces through the data layer, from the first launch of the app. */
module Scenario {
  import opened Seqs
  import opened Results
  import opened Tables
  import opened Queries
  import opened Database

  /**
    Before `initDatabase`: `executeSql` users refuse, `db!` users throw, and
    the `getDb` users open the handle but find no tables, after which the
    `executeSql` users get as far as the missing table.
   */
  lemma FirstLaunchBeforeInit()
    ensures LikePost(Fresh, 1, 1, 0) == Reply(Fresh, Err(NotInitialized))
    ensures DeletePost(Fresh, 1) == Reply(Fresh, Err(NotInitialized))
    ensures GetCommentsByPost(Fresh, 1, 1) == Err(NullHandle)
    ensures GetPostStats(Fresh) == Reply(Db(true, NoTables), Err(NoSuchTable))
    ensures CreatePost(Fresh, 1, "Hello", "World", "General", 0) == Reply(Db(true, NoTables), Err(NoSuchTable))
    ensures LikePost(GetPostStats(Fresh).db, 1, 1, 0).result == Err(NoSuchTable)
  {
  }

  const HelloPost := Post(1, 1, "Hello", "World", "General", 10)
  const HelloLike := Like(1, 1, 1, 11)
  const NiceComment := Comment(1, 1, 1, "Nice!", 12)

  // The tables after each step of the trace.
  const Seeded := Empty.(users := [DefaultUser])
  const Posted := Seeded.(posts := [HelloPost], postSeq := 1)
  const Liked := Posted.(likes := [HelloLike], likeSeq := 1)
  const Commented := Liked.(comments := [NiceComment], commentSeq := 1)

  lemma CountOne<T>(x: T, f: T -> bool)
    ensures Count([x], f) == if f(x) then 1 else 0
  {
    CountAppend([], x, f);
    assert [] + [x] == [x];
  }

  lemma SortOne<T>(x: T, key: T -> int)
    ensures SortByKey([x], key) == [x]
  {
    assert [x][..0] == [];
  }

  lemma TraceStates()
    ensures TablesOf(InitDatabase(Fresh).db) == Seeded
    ensures TablesOf(CreatePost(InitDatabase(Fresh).db, 1, "Hello", "World", "General", 10).db) == Posted
    ensures TablesOf(LikePost(Db(true, Created(Posted)), 1, 1, 11).db) == Liked
    ensures TablesOf(CreateComment(Db(true, Created(Liked)), 1, "Nice!", 1, 12).db) == Commented
  {
    assert DefaultUser in Seeded.users;
    assert HelloPost in Posted.posts;
  }

  lemma OnePostStats(t: Tables, likes: nat, comments: nat, liked: bool)
    requires t.posts == [HelloPost]
    requires LikeCount(t, 1) == likes && CommentCount(t, 1) == comments && PostLikedBy(t, 1, 1) == liked
    ensures PostStatsRows(t, DefaultUserId) == [PostStats(1, 1, "Hello", "World", "General", 10, likes, comments, liked)]
  {
    var row := PostStats(1, 1, "Hello", "World", "General", 10, likes, comments, liked);
    assert AllPostStats(t, DefaultUserId) == [row];
    SortOne(row, StatsNewestFirst);
  }

  lemma NiceCommentStats()
    ensures CommentsOfPost(Commented, 1, 1) == [CommentStats(1, 1, 1, "Nice!", 12, 0, false)]
  {
    var row := CommentStats(1, 1, 1, "Nice!", 12, 0, false);
    CountOne(NiceComment, CommentOnPost(1));
    assert Filter(Commented.comments, CommentOnPost(1)) == [NiceComment] by {
      assert Commented.comments == [] + [NiceComment];
      FilterAppend([], NiceComment, CommentOnPost(1));
    }
    assert AllCommentStats(Commented, 1, 1) == [row];
    SortOne(row, CommentOldestFirst);
  }

  /**
    Create post ("Hello", "World", "General"), like it as user 1, then add
    the comment "Nice!": the feed and the reply list show the counts move.
   */
  lemma HelloWorld()
    ensures
      var d0 := InitDatabase(Fresh).db;
      var d1 := CreatePost(d0, 1, "Hello", "World", "General", 10).db;
      var d2 := LikePost(d1, 1, 1, 11).db;
      var d3 := CreateComment(d2, 1, "Nice!", 1, 12).db;
      && GetPostStats(d1).result == Ok([PostStats(1, 1, "Hello", "World", "General", 10, 0, 0, false)])
      && GetPostStats(d2).result == Ok([PostStats(1, 1, "Hello", "World", "General", 10, 1, 0, true)])
      && GetPostStats(d3).result == Ok([PostStats(1, 1, "Hello", "World", "General", 10, 1, 1, true)])
      && GetCommentsByPost(d3, 1, 1) == Ok([CommentStats(1, 1, 1, "Nice!", 12, 0, false)])
  {
    TraceStates();
    var d1 := CreatePost(InitDatabase(Fresh).db, 1, "Hello", "World", "General", 10).db;
    assert d1 == Db(true, Created(Posted));
    var d2 := LikePost(d1, 1, 1, 11).db;
    assert d2 == Db(true, Created(Liked));
    var d3 := CreateComment(d2, 1, "Nice!", 1, 12).db;
    assert d3 == Db(true, Created(Commented));
    CountOne(HelloLike, LikeOnPost(1));
    CountOne(NiceComment, CommentOnPost(1));
    assert HelloLike in Liked.likes;
    OnePostStats(Posted, 0, 0, false);
    OnePostStats(Liked, 1, 0, true);
    OnePostStats(Commented, 1, 1, true);
    NiceCommentStats();
  }
}

=== FILE: seqs.dfy ===
/**
  Generic sequence operations the SQL statements are built from: `WHERE`
  filtering, `COUNT(*)`, `EXISTS`, `ORDER BY` and the `AUTOINCREMENT` maximum.
  A table is a sequence of rows in rowid order.
 */
module Seqs {

  function Not<T>(f: T -> bool): T -> bool {
    x => !f(x)
  }

  function And<T>(f: T -> bool, g: T -> bool): T -> bool {
    x => f(x) && g(x)
  }

  /** `SELECT ... WHERE keep`: the rows of `xs` that satisfy `keep` (see also `FilterSubMultiset`). */
  function Filter<T>(xs: seq<T>, keep: T -> bool): (r: seq<T>)
    ensures |r| <= |xs|
    ensures forall x :: x in r ==> x in xs && keep(x)
    ensures forall x :: x in xs && keep(x) ==> x in r
  {
    if |xs| == 0 then []
    else
      var n := |xs| - 1;
      assert xs == xs[..n] + [xs[n]];
      Filter(xs[..n], keep) + (if keep(xs[n]) then [xs[n]] else [])
  }

  /** A filter never duplicates a row: each row occurs in the result at most as often as in `xs`. */
  lemma {:induction false} FilterSubMultiset<T>(xs: seq<T>, keep: T -> bool)
    ensures multiset(Filter(xs, keep)) <= multiset(xs)
  {
    if |xs| > 0 {
      var n := |xs| - 1;
      FilterSubMultiset(xs[..n], keep);
      assert xs == xs[..n] + [xs[n]];
      assert multiset(xs) == multiset(xs[..n]) + multiset([xs[n]]);
    }
  }

  /** `SELECT COUNT(*) ... WHERE keep` */
  function Count<T>(xs: seq<T>, keep: T -> bool): (n: nat)
    ensures n <= |xs|
    ensures n == 0 <==> forall i :: 0 <= i < |xs| ==> !keep(xs[i])
  {
    var r := Filter(xs, keep);
    assert r != [] ==> r[0] in r;
    |r|
  }

  /** `EXISTS (SELECT 1 ... WHERE keep)` */
  function Any<T>(xs: seq<T>, keep: T -> bool): (b: bool)
    ensures b <==> exists i :: 0 <= i < |xs| && keep(xs[i])
  {
    Count(xs, keep) != 0
  }

  /** The positions of `xs` whose row satisfies `keep`. */
  function Matching<T>(xs: seq<T>, keep: T -> bool): set<int> {
    set i | 0 <= i < |xs| && keep(xs[i])
  }

  lemma FilterAppend<T>(xs: seq<T>, x: T, keep: T -> bool)
    ensures Filter(xs + [x], keep) == Filter(xs, keep) + (if keep(x) then [x] else [])
  {
    assert (xs + [x])[..|xs|] == xs;
  }

  lemma CountAppend<T>(xs: seq<T>, x: T, keep: T -> bool)
    ensures Count(xs + [x], keep) == Count(xs, keep) + (if keep(x) then 1 else 0)
  {
    FilterAppend(xs, x, keep);
  }

  /** Filtering with a predicate every row satisfies returns the table unchanged. */
  lemma {:induction false} FilterKeepsAll<T>(xs: seq<T>, keep: T -> bool)
    requires forall i :: 0 <= i < |xs| ==> keep(xs[i])
    ensures Filter(xs, keep) == xs
  {
    if |xs| > 0 {
      var n := |xs| - 1;
      FilterKeepsAll(xs[..n], keep);
      assert xs == xs[..n] + [xs[n]];
    }
  }

  /** `COUNT(*)` is the number of matching rows. */
  lemma {:induction false} CountIsCardinality<T>(xs: seq<T>, keep: T -> bool)
    ensures Count(xs, keep) == |Matching(xs, keep)|
  {
    if |xs| == 0 {
      assert Matching(xs, keep) == {};
    } else {
      var n := |xs| - 1;
      var ys := xs[..n];
      assert xs == ys + [xs[n]];
      CountIsCardinality(ys, keep);
      CountAppend(ys, xs[n], keep);
      if keep(xs[n]) {
        assert Matching(xs, keep) == Matching(ys, keep) + {n};
      } else {
        assert Matching(xs, keep) == Matching(ys, keep);
      }
    }
  }

  /**
    Counting `f` after deleting the rows that fail `keep` loses exactly the
    `f`-rows that `keep` rejects.
   */
  lemma {:induction false} CountAfterFilter<T>(xs: seq<T>, keep: T -> bool, f: T -> bool)
    ensures Count(Filter(xs, keep), f) + Count(xs, And(f, Not(keep))) == Count(xs, f)
  {
    if |xs| > 0 {
      var n := |xs| - 1;
      assert xs == xs[..n] + [xs[n]];
      CountAfterFilter(xs[..n], keep, f);
      CountAfterFilterStep(xs[..n], xs[n], keep, f);
    }
  }

  lemma CountAfterFilterStep<T>(ys: seq<T>, x: T, keep: T -> bool, f: T -> bool)
    requires Count(Filter(ys, keep), f) + Count(ys, And(f, Not(keep))) == Count(ys, f)
    ensures Count(Filter(ys + [x], keep), f) + Count(ys + [x], And(f, Not(keep))) == Count(ys + [x], f)
  {
    var dropped := And(f, Not(keep));
    assert dropped(x) == (f(x) && !keep(x));
    var fy := Filter(ys, keep);
    FilterAppend(ys, x, keep);
    CountAppend(ys, x, f);
    CountAppend(ys, x, dropped);
    if keep(x) {
      CountAppend(fy, x, f);
    } else {
      assert Filter(ys + [x], keep) == fy;
    }
  }

  /** Counting with two conditions that agree on every row gives the same count. */
  lemma {:induction false} CountSameCondition<T>(xs: seq<T>, f: T -> bool, g: T -> bool)
    requires forall i :: 0 <= i < |xs| ==> f(xs[i]) == g(xs[i])
    ensures Count(xs, f) == Count(xs, g)
  {
    if |xs| > 0 {
      var n := |xs| - 1;
      assert xs == xs[..n] + [xs[n]];
      CountSameCondition(xs[..n], f, g);
      CountAppend(xs[..n], xs[n], f);
      CountAppend(xs[..n], xs[n], g);
    }
  }

  /**
    Appending a row `x` and then deleting every row matching `same` (which
    `x` matches) loses, from the `f`-count, exactly the matching rows that
    were there before.
   */
  lemma AppendThenDelete<T>(xs: seq<T>, x: T, same: T -> bool, f: T -> bool)
    requires same(x) && f(x)
    requires forall i :: 0 <= i < |xs| && same(xs[i]) ==> f(xs[i])
    ensures Count(Filter(xs + [x], Not(same)), f) + Count(xs, same) == Count(xs, f)
  {
    var ys := xs + [x];
    CountAfterFilter(ys, Not(same), f);
    CountSameCondition(ys, And(f, Not(Not(same))), same);
    CountAppend(xs, x, same);
    CountAppend(xs, x, f);
  }

  /** No two rows share a key (a PRIMARY KEY or UNIQUE column). */
  predicate UniqueKeys<T, K(==)>(xs: seq<T>, key: T -> K) {
    forall i, j :: 0 <= i < j < |xs| ==> key(xs[i]) != key(xs[j])
  }

  /** Two rows of a uniquely keyed table with the same key are the same row. */
  lemma UniqueKeysSameRow<T, K>(xs: seq<T>, key: T -> K, x: T, y: T)
    requires UniqueKeys(xs, key)
    requires x in xs && y in xs && key(x) == key(y)
    ensures x == y
  {
    var i :| 0 <= i < |xs| && xs[i] == x;
    var j :| 0 <= j < |xs| && xs[j] == y;
    assert !(i < j) && !(j < i);
  }

  lemma {:induction false} FilterUniqueKeys<T, K>(xs: seq<T>, keep: T -> bool, key: T -> K)
    requires UniqueKeys(xs, key)
    ensures UniqueKeys(Filter(xs, keep), key)
  {
    if |xs| > 0 {
      var n := |xs| - 1;
      var ys := xs[..n];
      assert xs == ys + [xs[n]];
      FilterUniqueKeys(ys, keep, key);
      var fs := Filter(ys, keep);
      forall k | 0 <= k < |fs|
        ensures key(fs[k]) != key(xs[n])
      {
        assert fs[k] in ys;
      }
    }
  }

  /** In a table with unique keys every row occurs exactly once. */
  lemma {:induction false} UniqueKeysOccurOnce<T, K>(xs: seq<T>, key: T -> K)
    requires UniqueKeys(xs, key)
    ensures forall i :: 0 <= i < |xs| ==> multiset(xs)[xs[i]] == 1
  {
    if |xs| > 0 {
      var n := |xs| - 1;
      var ys := xs[..n];
      assert xs == ys + [xs[n]];
      UniqueKeysOccurOnce(ys, key);
      assert forall m :: 0 <= m < n ==> key(ys[m]) != key(xs[n]);
      assert xs[n] !in ys;
      forall i | 0 <= i < |xs|
        ensures multiset(xs)[xs[i]] == 1
      {
        if i < n {
          assert xs[i] == ys[i];
          assert key(xs[i]) != key(xs[n]);
        }
      }
    }
  }

  /** The largest key of `xs`, or `floor` when that is larger. */
  function MaxKey<T>(xs: seq<T>, key: T -> int, floor: int): (m: int)
    ensures floor <= m
    ensures forall i :: 0 <= i < |xs| ==> key(xs[i]) <= m
    ensures m == floor || exists i :: 0 <= i < |xs| && key(xs[i]) == m
  {
    if |xs| == 0 then floor
    else
      var n := |xs| - 1;
      var m0 := MaxKey(xs[..n], key, floor);
      assert forall i :: 0 <= i < n ==> xs[i] == xs[..n][i];
      if key(xs[n]) > m0 then key(xs[n]) else m0
  }

  /** Two permutations of each other hold the same rows. */
  lemma SameElements<T>(xs: seq<T>, ys: seq<T>)
    requires multiset(xs) == multiset(ys)
    ensures forall x :: x in xs <==> x in ys
  {
    forall x ensures x in xs <==> x in ys {
      assert x in xs <==> x in multiset(xs);
      assert x in ys <==> x in multiset(ys);
    }
  }

  /** `ORDER BY key ASC` holds of `xs`. */
  predicate SortedBy<T>(xs: seq<T>, key: T -> int) {
    forall i, j :: 0 <= i < j < |xs| ==> key(xs[i]) <= key(xs[j])
  }

  lemma InsertBound<T>(b: int, x: T, xs: seq<T>, rest: seq<T>, key: T -> int)
    requires b <= key(x)
    requires forall i :: 0 <= i < |xs| ==> b <= key(xs[i])
    requires multiset(rest) == multiset(xs) + multiset{x}
    ensures forall k :: 0 <= k < |rest| ==> b <= key(rest[k])
  {
    forall k | 0 <= k < |rest|
      ensures b <= key(rest[k])
    {
      assert rest[k] in multiset(rest);
      if rest[k] != x {
        assert rest[k] in multiset(xs);
        var i :| 0 <= i < |xs| && xs[i] == rest[k];
      }
    }
  }

  /** Inserts `x` after every row whose key is not larger, keeping ties in arrival order. */
  function InsertByKey<T>(x: T, xs: seq<T>, key: T -> int): (r: seq<T>)
    requires SortedBy(xs, key)
    ensures |r| == |xs| + 1
    ensures multiset(r) == multiset(xs) + multiset{x}
    ensures SortedBy(r, key)
  {
    if |xs| == 0 || key(x) < key(xs[0]) then [x] + xs
    else
      var rest := InsertByKey(x, xs[1..], key);
      assert xs == [xs[0]] + xs[1..];
      InsertBound(key(xs[0]), x, xs[1..], rest, key);
      [xs[0]] + rest
  }

  /** A stable sort of `xs` by ascending key. */
  function SortByKey<T>(xs: seq<T>, key: T -> int): (r: seq<T>)
    ensures |r| == |xs|
    ensures multiset(r) == multiset(xs)
    ensures SortedBy(r, key)
  {
    if |xs| == 0 then []
    else
      var n := |xs| - 1;
      assert xs == xs[..n] + [xs[n]];
      InsertByKey(xs[n], SortByKey(xs[..n], key), key)
  }
}

=== FILE: statements.dfy ===
/**
  The SQL statements of `services/database.ts` as transitions of the tables.
  An insert that would break a foreign key fails and leaves the tables as
  they were; deletes follow the `ON DELETE CASCADE` clauses.
 */
module Statements {
  import opened Seqs
  import opened Results
  import opened Tables

  /** A row already holds the seed's primary key or its unique email. */
  predicate SeedConflict(t: Tables) {
    exists u :: u in t.users && (u.id == DefaultUser.id || u.email == DefaultUser.email)
  }

  /** `INSERT OR IGNORE INTO users (id, name, email) VALUES (1, 'DefaultUser', 'default@example.com')` */
  function SeedDefaultUser(t: Tables): (r: Tables)
    ensures r == t.(users := r.users)
    ensures exists u :: u in r.users && (u.id == DefaultUser.id || u.email == DefaultUser.email)
    ensures Valid(t) ==> r.users == [DefaultUser]
  {
    if SeedConflict(t) then t
    else
      var users := t.users + [DefaultUser];
      assert DefaultUser in users;
      t.(users := users)
  }

  /** `INSERT INTO posts (user_id, title, content, tag) VALUES (?, ?, ?, ?)` */
  function InsertPost(t: Tables, userId: int, title: string, content: string, tag: string,
                      now: nat): (r: Result<Tables>)
    ensures r.Ok? <==> userId in UserIds(t)
    ensures r.Ok? ==> r.value == t.(posts := r.value.posts, postSeq := r.value.postSeq)
    ensures r.Ok? ==> r.value.posts == t.posts + [Post(r.value.postSeq, userId, title, content, tag, now)]
    ensures r.Ok? ==> t.postSeq < r.value.postSeq && r.value.postSeq !in PostIds(t)
  {
    if userId !in UserIds(t) then Err(ForeignKeyViolation)
    else
      var id := NextId(t.posts, PostKey, t.postSeq);
      assert forall p :: p in t.posts ==> p.id < id;
      Ok(t.(posts := t.posts + [Post(id, userId, title, content, tag, now)], postSeq := id))
  }

  /** `UPDATE posts SET title = ?, content = ?, tag = ? WHERE id = ?` */
  function SetPostFields(t: Tables, id: int, title: string, content: string, tag: string): (r: Tables)
    ensures r == t.(posts := r.posts)
    ensures |r.posts| == |t.posts|
    ensures forall i :: 0 <= i < |t.posts| ==>
      && r.posts[i].id == t.posts[i].id
      && r.posts[i].userId == t.posts[i].userId
      && r.posts[i].createdAt == t.posts[i].createdAt
      && (t.posts[i].id == id ==> r.posts[i].title == title && r.posts[i].content == content && r.posts[i].tag == tag)
      && (t.posts[i].id != id ==> r.posts[i] == t.posts[i])
    ensures id !in PostIds(t) ==> r == t
  {
    var posts := seq(|t.posts|, i requires 0 <= i < |t.posts| =>
      var p := t.posts[i];
      if p.id == id then p.(title := title, content := content, tag := tag) else p);
    assert id !in PostIds(t) ==> posts == t.posts by {
      if id !in PostIds(t) {
        assert forall i :: 0 <= i < |t.posts| ==> t.posts[i] in t.posts;
      }
    }
    t.(posts := posts)
  }

  /**
    `DELETE FROM posts WHERE id = ?`: when a post is deleted its comments and
    likes go with it, and with each comment its comment_likes.
   */
  function DeletePostCascade(t: Tables, id: int): (r: Tables)
    ensures r == t.(posts := r.posts, comments := r.comments, likes := r.likes, commentLikes := r.commentLikes)
    ensures id !in PostIds(t) ==> r == t
    ensures forall p :: p in r.posts <==> p in t.posts && p.id != id
    ensures id in PostIds(t) ==> forall c :: c in r.comments <==> c in t.comments && c.postId != id
    ensures id in PostIds(t) ==> forall l :: l in r.likes <==> l in t.likes && l.postId != id
    ensures id in PostIds(t) ==>
      forall l :: l in r.commentLikes <==> l in t.commentLikes && l.commentId !in CommentIdsOf(t, id)
  {
    if id !in PostIds(t) then
      assert forall p :: p in t.posts ==> p.id != id;
      t
    else
      t.(posts := Filter(t.posts, Not(PostWithId(id))),
         comments := Filter(t.comments, Not(CommentOnPost(id))),
         likes := Filter(t.likes, Not(LikeOnPost(id))),
         commentLikes := Filter(t.commentLikes, Not(CommentLikeOnAny(CommentIdsOf(t, id)))))
  }

  /** `INSERT INTO likes (post_id, user_id) VALUES (?, ?)`, with no check for an earlier like */
  function InsertLike(t: Tables, postId: int, userId: int, now: nat): (r: Result<Tables>)
    ensures r.Ok? <==> postId in PostIds(t) && userId in UserIds(t)
    ensures r.Ok? ==> r.value == t.(likes := r.value.likes, likeSeq := r.value.likeSeq)
    ensures r.Ok? ==> r.value.likes == t.likes + [Like(r.value.likeSeq, postId, userId, now)]
    ensures r.Ok? ==> t.likeSeq < r.value.likeSeq && forall l :: l in t.likes ==> l.id != r.value.likeSeq
  {
    if postId !in PostIds(t) || userId !in UserIds(t) then Err(ForeignKeyViolation)
    else
      var id := NextId(t.likes, LikeKey, t.likeSeq);
      assert forall l :: l in t.likes ==> l.id < id;
      Ok(t.(likes := t.likes + [Like(id, postId, userId, now)], likeSeq := id))
  }

  /** `DELETE FROM likes WHERE post_id = ? AND user_id = ?`: every matching row, however many */
  function DeleteLikes(t: Tables, postId: int, userId: int): (r: Tables)
    ensures r == t.(likes := r.likes)
    ensures forall l :: l in r.likes <==> l in t.likes && !(l.postId == postId && l.userId == userId)
    ensures !Any(t.likes, LikeBy(postId, userId)) ==> r == t
  {
    var likes := Filter(t.likes, Not(LikeBy(postId, userId)));
    assert !Any(t.likes, LikeBy(postId, userId)) ==> likes == t.likes by {
      if !Any(t.likes, LikeBy(postId, userId)) {
        FilterKeepsAll(t.likes, Not(LikeBy(postId, userId)));
      }
    }
    t.(likes := likes)
  }

  /** `INSERT INTO comments (post_id, user_id, content) VALUES (?, ?, ?)` */
  function InsertComment(t: Tables, postId: int, userId: int, content: string, now: nat): (r: Result<Tables>)
    ensures r.Ok? <==> postId in PostIds(t) && userId in UserIds(t)
    ensures r.Ok? ==> r.value == t.(comments := r.value.comments, commentSeq := r.value.commentSeq)
    ensures r.Ok? ==> r.value.comments == t.comments + [Comment(r.value.commentSeq, postId, userId, content, now)]
    ensures r.Ok? ==> t.commentSeq < r.value.commentSeq && r.value.commentSeq !in CommentIds(t)
  {
    if postId !in PostIds(t) || userId !in UserIds(t) then Err(ForeignKeyViolation)
    else
      var id := NextId(t.comments, CommentKey, t.commentSeq);
      assert forall c :: c in t.comments ==> c.id < id;
      Ok(t.(comments := t.comments + [Comment(id, postId, userId, content, now)], commentSeq := id))
  }

  /** `UPDATE comments SET content = ? WHERE id = ?` */
  function SetCommentContent(t: Tables, id: int, content: string): (r: Tables)
    ensures r == t.(comments := r.comments)
    ensures |r.comments| == |t.comments|
    ensures forall i :: 0 <= i < |t.comments| ==>
      && r.comments[i].id == t.comments[i].id
      && r.comments[i].postId == t.comments[i].postId
      && r.comments[i].userId == t.comments[i].userId
      && r.comments[i].createdAt == t.comments[i].createdAt
      && (t.comments[i].id == id ==> r.comments[i].content == content)
      && (t.comments[i].id != id ==> r.comments[i] == t.comments[i])
    ensures id !in CommentIds(t) ==> r == t
  {
    var comments := seq(|t.comments|, i requires 0 <= i < |t.comments| =>
      var c := t.comments[i];
      if c.id == id then c.(content := content) else c);
    assert id !in CommentIds(t) ==> comments == t.comments by {
      if id !in CommentIds(t) {
        assert forall i :: 0 <= i < |t.comments| ==> t.comments[i] in t.comments;
      }
    }
    t.(comments := comments)
  }

  /** `DELETE FROM comments WHERE id = ?`: the comment_likes on it go with it. */
  function DeleteCommentCascade(t: Tables, id: int): (r: Tables)
    ensures r == t.(comments := r.comments, commentLikes := r.commentLikes)
    ensures id !in CommentIds(t) ==> r == t
    ensures forall c :: c in r.comments <==> c in t.comments && c.id != id
    ensures id in CommentIds(t) ==> forall l :: l in r.commentLikes <==> l in t.commentLikes && l.commentId != id
  {
    if id !in CommentIds(t) then
      assert forall c :: c in t.comments ==> c.id != id;
      t
    else
      t.(comments := Filter(t.comments, Not(CommentWithId(id))),
         commentLikes := Filter(t.commentLikes, Not(CommentLikeOn(id))))
  }

  /** `INSERT INTO comment_likes (comment_id, user_id) VALUES (?, ?)`, with no check for an earlier like */
  function InsertCommentLike(t: Tables, commentId: int, userId: int, now: nat): (r: Result<Tables>)
    ensures r.Ok? <==> commentId in CommentIds(t) && userId in UserIds(t)
    ensures r.Ok? ==> r.value == t.(commentLikes := r.value.commentLikes, commentLikeSeq := r.value.commentLikeSeq)
    ensures r.Ok? ==>
      r.value.commentLikes == t.commentLikes + [CommentLike(r.value.commentLikeSeq, commentId, userId, now)]
    ensures r.Ok? ==>
      t.commentLikeSeq < r.value.commentLikeSeq && forall l :: l in t.commentLikes ==> l.id != r.value.commentLikeSeq
  {
    if commentId !in CommentIds(t) || userId !in UserIds(t) then Err(ForeignKeyViolation)
    else
      var id := NextId(t.commentLikes, CommentLikeKey, t.commentLikeSeq);
      assert forall l :: l in t.commentLikes ==> l.id < id;
      Ok(t.(commentLikes := t.commentLikes + [CommentLike(id, commentId, userId, now)], commentLikeSeq := id))
  }

  /** `DELETE FROM comment_likes WHERE comment_id = ? AND user_id = ?` */
  function DeleteCommentLikes(t: Tables, commentId: int, userId: int): (r: Tables)
    ensures r == t.(commentLikes := r.commentLikes)
    ensures forall l :: l in r.commentLikes <==> l in t.commentLikes && !(l.commentId == commentId && l.userId == userId)
    ensures !Any(t.commentLikes, CommentLikeBy(commentId, userId)) ==> r == t
  {
    var commentLikes := Filter(t.commentLikes, Not(CommentLikeBy(commentId, userId)));
    assert !Any(t.commentLikes, CommentLikeBy(commentId, userId)) ==> commentLikes == t.commentLikes by {
      if !Any(t.commentLikes, CommentLikeBy(commentId, userId)) {
        FilterKeepsAll(t.commentLikes, Not(CommentLikeBy(commentId, userId)));
      }
    }
    t.(commentLikes := commentLikes)
  }
}

=== FILE: tables.dfy ===
/**
  The five tables `initDatabase` creates, as sequences of rows in rowid
  order, together with the `sqlite_sequence` counters of their
  `AUTOINCREMENT` keys and the constraints the schema enforces.
 */
module Tables {
  import opened Seqs

  datatype User = User(id: int, name: string, email: string)

  /** `created_at` is an abstract clock tick; `CURRENT_TIMESTAMP` text sorts the same way. */
  datatype Post = Post(id: int, userId: int, title: string, content: string, tag: string, createdAt: nat)

  datatype Comment = Comment(id: int, postId: int, userId: int, content: string, createdAt: nat)

  datatype Like = Like(id: int, postId: int, userId: int, createdAt: nat)

  datatype CommentLike = CommentLike(id: int, commentId: int, userId: int, createdAt: nat)

  datatype Tables = Tables(
    users: seq<User>,
    posts: seq<Post>,
    comments: seq<Comment>,
    likes: seq<Like>,
    commentLikes: seq<CommentLike>,
    // the sqlite_sequence entries: the largest id each table ever handed out
    postSeq: int,
    commentSeq: int,
    likeSeq: int,
    commentLikeSeq: int)

  /** The tables right after `CREATE TABLE IF NOT EXISTS` on a blank file. */
  const Empty: Tables := Tables([], [], [], [], [], 0, 0, 0, 0)

  /** The one user the application ever writes; every screen acts as user 1. */
  const DefaultUserId: int := 1
  const DefaultUser: User := User(DefaultUserId, "DefaultUser", "default@example.com")

  function PostKey(p: Post): int { p.id }
  function CommentKey(c: Comment): int { c.id }
  function LikeKey(l: Like): int { l.id }
  function CommentLikeKey(l: CommentLike): int { l.id }

  function UserIds(t: Tables): set<int> {
    set u | u in t.users :: u.id
  }

  function PostIds(t: Tables): set<int> {
    set p | p in t.posts :: p.id
  }

  function CommentIds(t: Tables): set<int> {
    set c | c in t.comments :: c.id
  }

  /** The ids of the comments on post `postId`: the rows a cascade from that post reaches. */
  function CommentIdsOf(t: Tables, postId: int): set<int> {
    set c | c in t.comments && c.postId == postId :: c.id
  }

  // The `WHERE` conditions of the statements and subqueries.

  function PostWithId(id: int): Post -> bool {
    (p: Post) => p.id == id
  }

  function CommentWithId(id: int): Comment -> bool {
    (c: Comment) => c.id == id
  }

  function CommentOnPost(postId: int): Comment -> bool {
    (c: Comment) => c.postId == postId
  }

  function LikeOnPost(postId: int): Like -> bool {
    (l: Like) => l.postId == postId
  }

  function LikeBy(postId: int, userId: int): Like -> bool {
    (l: Like) => l.postId == postId && l.userId == userId
  }

  function CommentLikeOn(commentId: int): CommentLike -> bool {
    (l: CommentLike) => l.commentId == commentId
  }

  function CommentLikeOnAny(commentIds: set<int>): CommentLike -> bool {
    (l: CommentLike) => l.commentId in commentIds
  }

  function CommentLikeBy(commentId: int, userId: int): CommentLike -> bool {
    (l: CommentLike) => l.commentId == commentId && l.userId == userId
  }

  /**
    What the schema, with `PRAGMA foreign_keys = ON`, guarantees of every
    committed state: primary keys are unique and every foreign key names an
    existing parent row. Only the seed ever writes the users table, so in a
    valid state the only user id any row can name is the default user's.
   */
  predicate Valid(t: Tables): (v: bool)
    ensures v ==> UserIds(t) <= {DefaultUserId}
  {
    && (t.users == [] || t.users == [DefaultUser])
    && UniqueKeys(t.posts, PostKey)
    && UniqueKeys(t.comments, CommentKey)
    && UniqueKeys(t.likes, LikeKey)
    && UniqueKeys(t.commentLikes, CommentLikeKey)
    && (forall p :: p in t.posts ==> p.userId in UserIds(t))
    && (forall c :: c in t.comments ==> c.postId in PostIds(t) && c.userId in UserIds(t))
    && (forall l :: l in t.likes ==> l.postId in PostIds(t) && l.userId in UserIds(t))
    && (forall l :: l in t.commentLikes ==> l.commentId in CommentIds(t) && l.userId in UserIds(t))
  }

  /** `AUTOINCREMENT`: one more than both the sequence counter and every id in the table. */
  function NextId<T>(xs: seq<T>, key: T -> int, counter: int): (id: int)
    ensures counter < id
    ensures forall i :: 0 <= i < |xs| ==> key(xs[i]) < id
  {
    MaxKey(xs, key, counter) + 1
  }
}

=== FILE: updates.dfy ===
/** Updates rewrite only the named columns of the row with the given id; the last one wins. */
module UpdateProperties {
  import opened Tables
  import opened Statements
  import opened Database

  lemma SetPostFieldsTwice(t: Tables, id: int, title1: string, content1: string, tag1: string,
                           title2: string, content2: string, tag2: string)
    ensures SetPostFields(SetPostFields(t, id, title1, content1, tag1), id, title2, content2, tag2)
         == SetPostFields(t, id, title2, content2, tag2)
  {
    var a := SetPostFields(SetPostFields(t, id, title1, content1, tag1), id, title2, content2, tag2);
    var b := SetPostFields(t, id, title2, content2, tag2);
    assert a.posts == b.posts;
  }

  /** A second `updatePost` of the same post overwrites the first completely. */
  lemma UpdatePostLastWriteWins(db: Db, postId: int, title1: string, content1: string, tag1: string,
                                title2: string, content2: string, tag2: string)
    ensures UpdatePost(UpdatePost(db, postId, title1, content1, tag1).db, postId, title2, content2, tag2)
         == UpdatePost(db, postId, title2, content2, tag2)
  {
    if db.open && db.store.Created? {
      SetPostFieldsTwice(db.store.tables, postId, title1, content1, tag1, title2, content2, tag2);
    }
  }

  lemma SetCommentContentTwice(t: Tables, id: int, content1: string, content2: string)
    ensures SetCommentContent(SetCommentContent(t, id, content1), id, content2) == SetCommentContent(t, id, content2)
  {
    var a := SetCommentContent(SetCommentContent(t, id, content1), id, content2);
    var b := SetCommentContent(t, id, content2);
    assert a.comments == b.comments;
  }

  /** A second `updateComment` of the same comment overwrites the first. */
  lemma UpdateCommentLastWriteWins(db: Db, commentId: int, content1: string, content2: string)
    ensures UpdateComment(UpdateComment(db, commentId, content1).db, commentId, content2)
         == UpdateComment(db, commentId, content2)
  {
    if db.open && db.store.Created? {
      SetCommentContentTwice(db.store.tables, commentId, content1, content2);
    }
  }
}
